=== FILE: README.md ===
# Portfolio API and admin dashboard — a Dafny model

This project models the core of a personal portfolio site. The server is an
Express application over MongoDB collections of projects, certificates and
contact messages. The client is a React admin dashboard plus a public projects
section. The model covers:

- the server's request handling: payload normalisation for projects, the
  Mongoose schema casts and required validators, and the create / update /
  delete / list operations of the three collections;
- administrator login and the first-start bootstrap of a default
  administrator;
- the upload filters for project images and the resume, the stored image
  file name, and which routes the `protect` guard covers;
- the client's pure helpers: the message search, the order messages are shown
  in, the project edit form and what it submits, the local list updates after
  a write, the category filter, the tech tags and the achievement list.

A collection is a map from id to record plus a strictly increasing clock.
The clock stamps both the id and `createdAt`, so `find().sort({createdAt: -1})`
becomes "the records of the map, newest first". `Repository.List` computes
such a listing by insertion. `Repository.ListingUnique` shows there is only one.

JavaScript and Mongoose behaviour the code relies on is written out:

- `split` on one character always yields at least one piece;
- `trim` and the regular-expression class `\s` use the same whitespace set;
- `includes` is a substring test, and `toLowerCase` is modelled on ASCII;
- `FormData` sends an absent value as the text `"undefined"`;
- Node's `path.extname` is given its POSIX definition;
- a `String` path casts a boolean to its name and refuses an array;
- a `[String]` path wraps a single value into a one-element array;
- a `Boolean` path accepts `true/1/yes` and `false/0/no`;
- an update overwrites only the fields present in the body and then runs the
  required validators.

Library calls whose internals are not part of the system are parameters:

- the password comparison and the token signer (`Login`);
- the password hash (`Bootstrap`);
- the upload time (`PostProject`);
- the mail delivery outcome (`SendMessage`).

## Model

| member | source | states |
|---|---|---|
| Values.CastString | server/models/Project.js:4-8 | a missing field leaves a `String` path unset; text is stored as sent, trimmed on a `trim` path; a boolean becomes the text `true` or `false`; only an array fails the cast |
| Values.CastStringArray | server/models/Project.js:14-17 | a `[String]` path keeps an array as given and turns a single text into a one-element array; only a missing field leaves it unset |
| Values.CastBoolean | server/models/Project.js:26-29 | a `Boolean` path keeps a boolean, refuses an array and leaves a missing field unset |
| Values.RequiredTextCast | server/models/Project.js:4-8 | a required `String` path is satisfied exactly when the field is present, not an array, and not blank: all whitespace counts as blank on a `trim` path, only the empty text elsewhere |
| Values.TextOrNonEmpty | server/controllers/projectController.js:84-87 | once a castable field is cast onto a path, the path is non-empty exactly when the field was absent and the old value non-empty, or the field was supplied and not blank |
| ProjectModel.Merge | server/models/Project.js:3-47 | the cast fails exactly on an array in a text path or a non-boolean flag; otherwise every missing field keeps its base value and every supplied field is stored: text as given (trimmed on `trim` paths), a boolean on a text path as its name, text or a boolean on an array path as a one-element array, a boolean spelling as the flag it spells |
| ProjectModel.Build | server/models/Project.js:3-47 | a creation is accepted exactly when no field fails its cast and title, description, image and category are all supplied and not blank; an accepted project is well formed, stores every supplied field as the cast converts it (text trimmed except the image, single values wrapped into arrays, booleans named), and gets empty arrays, `false` and no links by default |
| ProjectModel.ApplyUpdate | server/controllers/projectController.js:84-87 | an update of a well-formed project is accepted exactly when no field fails its cast and none of title, description, image and category is supplied blank; the result is well formed, keeps the stored value of every absent field and stores every supplied one as the cast converts it, so the text `tech` or `achievements` the edit form can send becomes a one-element array |
| ProjectModel.CompleteUpdateIsBuild | server/controllers/projectController.js:43 | when the body names every field, an update accepts and writes exactly what a creation from the same body would |
| ProjectModel.BuildAccepts | server/models/Project.js:3-47 | a body with non-blank required text, a non-empty image and castable other fields is accepted, with title and category stored trimmed |
| ProjectController.NormaliseTech | server/controllers/projectController.js:31-33 | a non-empty text `tech` becomes one trimmed, comma-free entry per comma-separated piece (blank pieces kept, one more piece than commas); any other value passes through unchanged |
| ProjectController.NormaliseAchievements | server/controllers/projectController.js:35-37 | a non-empty text `achievements` becomes exactly its lines in order, each trimmed, with blank lines dropped and repeated lines kept; every entry is non-empty, trimmed and newline-free; any other value passes through unchanged |
| ProjectController.AchievementsOfLine | server/controllers/projectController.js:35-37 | a single non-empty line gives its trimmed form as the only achievement, or none when it is blank |
| ProjectController.AchievementsLineByLine | server/controllers/projectController.js:35-37 | the first line's achievement, if any, comes before all achievements of the rest of the text, which keeps its own order and repetitions |
| ProjectController.NormaliseFeatured | server/controllers/projectController.js:39-41 | a text flag becomes `true` exactly when it is `"true"`; other values pass through |
| ProjectController.FeaturedFromText | server/controllers/projectController.js:39-41 | a text `isFeatured` never fails the boolean cast, and the built project is featured exactly when the text is `true`; spellings the schema alone would accept as true give false |
| ProjectController.Normalise | server/controllers/projectController.js:25-41 | an uploaded file's path replaces the body's image, the three coercions apply, and every other field reaches the schema as sent |
| ProjectController.GetProjects | server/controllers/projectController.js:6-18 | the reply lists every stored project exactly once, newest first, and its count equals the number of projects |
| ProjectController.CreateProject | server/controllers/projectController.js:23-53 | a body the schema accepts is stored under a new id as the newest record and answered with 201; otherwise the answer is 400 and nothing is written; the collection stays consistent |
| ProjectController.UpdateProject | server/controllers/projectController.js:58-98 | an unknown id is a 404 `Project not found`; a refused update is a 400 with no write; an accepted one keeps id and creation time, replaces only that record, and leaves absent fields as stored |
| ProjectController.DeleteProject | server/controllers/projectController.js:103-121 | an unknown id is a 404; otherwise exactly that record goes and every other record is untouched |
| ProjectController.CreateAndUpdateAgree | server/controllers/projectController.js:23-98 | with a complete body, create and update succeed together and store the same fields |
| CertificateModel.Build | server/models/Certificate.js:3-29 | a creation is accepted exactly when no field is an array and name, issuer and date are supplied and not blank (the untrimmed date only needs to be non-empty); an accepted certificate is well formed, stores supplied text (trimmed except `date`) and booleans as their names, and has no description or link unless given |
| CertificateModel.ApplyUpdate | server/controllers/certificateController.js:47-50 | an update of a well-formed certificate is accepted exactly when no field is an array and none of name, issuer and date is supplied blank; the result is well formed, changes only the supplied fields and stores them as the cast converts them |
| CertificateModel.BuildAccepts | server/models/Certificate.js:3-29 | a body with non-blank name and issuer, a non-empty date and no arrays is accepted, with name and issuer trimmed and the date kept as sent |
| CertificateModel.EmptyUpdateKeeps | server/controllers/certificateController.js:47-50 | an empty body leaves a stored certificate as it was |
| CertificateController.GetCertificates | server/controllers/certificateController.js:6-18 | every certificate once, newest first, with a matching count |
| CertificateController.CreateCertificate | server/controllers/certificateController.js:23-34 | 201 and a record under a new id exactly when the schema accepts the body, else 400 and no write |
| CertificateController.UpdateCertificate | server/controllers/certificateController.js:39-60 | 404 `Certificate not found` for an unknown id; a known id is updated exactly when the schema accepts the body, else 400 with no write; an update changes only that record, in the supplied fields only, keeping id and creation time |
| CertificateController.DeleteCertificate | server/controllers/certificateController.js:65-83 | 404 for an unknown id, else exactly that record is removed |
| MessageController.NotificationFor | server/controllers/messageController.js:48-63 | the notification subject is the fixed prefix followed by the message subject, and it carries the sender's name, address and text |
| MessageController.SendMessage | server/controllers/messageController.js:29-86 | a missing or empty field is a 400 `Please provide all fields` that stores and sends nothing; otherwise the message is stored as the newest record, answered with 201 and announced by mail |
| MessageController.ReplyIgnoresDelivery | server/controllers/messageController.js:65-78 | the reply and the stored state do not depend on whether the mail was delivered |
| MessageController.GetMessages | server/controllers/messageController.js:91-102 | every message once, newest first, with a matching count |
| MessageController.DeleteMessage | server/controllers/messageController.js:107-118 | 404 `Message not found` for an unknown id, else exactly that message is removed |
| MessageController.DeletedMessageLeavesListing | server/controllers/messageController.js:107-118 | after a delete, no listing of the collection contains the deleted message |
| AuthController.SigningSecret | server/controllers/authController.js:23 | the configured secret is used when set and non-empty, else the fallback key |
| AuthController.FindByUsername | server/controllers/authController.js:9 | the lookup finds a user exactly when one has that name, and then the first such user |
| AuthController.Login | server/controllers/authController.js:4-39 | login succeeds exactly when the name is known and the password check passes; the token signs that user's id and name with the configured secret for 24 hours, and the reply carries id and name only; every failure is a 401 `Invalid credentials` |
| AuthController.FailuresIndistinguishable | server/controllers/authController.js:10-18 | an unknown name and a wrong password give the same reply |
| AuthController.Bootstrap | server/controllers/authController.js:42-56 | an empty user collection gets exactly the default administrator; a non-empty one is unchanged |
| AuthController.BootstrapIdempotent | server/controllers/authController.js:44-45 | running the bootstrap again changes nothing |
| AuthController.DefaultAdminLogsIn | server/controllers/authController.js:46-49 | on a fresh installation the default name and password log in as the created user |
| Upload.LastIndex | server/routes/projectRoutes.js:26 | the result is the position of the last occurrence, or -1 exactly when there is none |
| Upload.Extname | server/routes/projectRoutes.js:26 | an extension is empty or a dot followed by dot-free, slash-free text, and is non-empty only when the last path component has a dot and is not `..` |
| Upload.ExtnameOfSuffix | server/routes/projectRoutes.js:26 | a slash-free stem followed by a dot and dot-free text has exactly that text, with its dot, as its extension |
| Upload.ExtnameAfterPlainStem | server/routes/projectRoutes.js:18 | a dot-free, slash-free stem followed by any extension has exactly that extension and no slash |
| Upload.ProjectFileNameKeepsExtension | server/routes/projectRoutes.js:17-19 | a stored image name has the extension of the uploaded file's name and is a single path component |
| Upload.ProjectFileNamesDistinct | server/routes/projectRoutes.js:17-19 | images uploaded at different times never share a stored name |
| Upload.StoredImageStillAccepted | server/routes/projectRoutes.js:17-31 | the stored name of an accepted image would pass the image filter again |
| Routes.AllWritesGuarded | server/routes/projectRoutes.js:35-38 | in the project, certificate and resume route tables a route is guarded exactly when it is not a GET |
| Routes.Lookup | server/routes/certificateRoutes.js:12-18 | a found route is in the table with the requested verb and path; no route means none matches |
| Routes.Status | server/routes/resumeRoutes.js:23-33 | a guard stop answers 401, a filter rejection 500 and a handled request the controller's code |
| Routes.Admit | server/routes/projectRoutes.js:22-38 | a guarded route without a valid token stops with 401; a request passes exactly when guarded routes are authenticated and any file passes the filter; otherwise it stops with a 500 from Express's default error handler, whose body depends on the environment |
| Routes.Guard | server/routes/certificateRoutes.js:12-18 | a request without an upload is stopped exactly when the route is guarded and the caller is not authenticated, and then with 401 |
| Routes.PostProject | server/routes/projectRoutes.js:36 | unauthenticated or filtered-out requests write nothing; an admitted one is the controller's create with the image stored under `uploads/projects/` by upload time, from an accepted file |
| Routes.PutProject | server/routes/projectRoutes.js:37 | as above for update; without a new image and without an image field the stored image is kept |
| Routes.DeleteProjectRoute | server/routes/projectRoutes.js:38 | an unauthenticated delete is refused with no write; otherwise it is the controller's delete |
| Routes.PostCertificate | server/routes/certificateRoutes.js:14 | guarded create: 401 and no write without a token, else the controller's create |
| Routes.PutCertificate | server/routes/certificateRoutes.js:17 | guarded update: 401 and no write without a token, else the controller's update |
| Routes.DeleteCertificateRoute | server/routes/certificateRoutes.js:18 | guarded delete: 401 and no write without a token, else the controller's delete |
| Routes.UploadResume | server/routes/resumeRoutes.js:8-50 | the resume is replaced, and `/uploads/resume.pdf` reported, exactly when an authenticated request carries a file the PDF filter accepts; no token is 401, no file is 400, a rejected file is the filter error, and none of these writes |
| Routes.GetResume | server/routes/resumeRoutes.js:55-65 | the public path is returned exactly when a resume is stored, else 404 `Resume not found` |
| Routes.UploadThenGet | server/routes/resumeRoutes.js:41-65 | after an accepted upload the public read returns the path the upload reported, and the stored file is the uploaded one |
| Routes.SecondUploadWins | server/routes/resumeRoutes.js:16-17 | only the latest accepted upload is kept |
| Repository.Insert | server/models/Project.js:43-46 | a new record gets an unused id and is newer than every stored record; nothing else changes |
| Repository.Remove | server/controllers/projectController.js:111 | removing a record deletes exactly that key and leaves the rest unchanged |
| Repository.Replace | server/controllers/projectController.js:84-87 | replacing keeps the key set, the id and the creation time, and leaves the other records unchanged |
| Repository.ReplaceUnchanged | server/controllers/projectController.js:84-87 | writing back a record's own fields leaves the collection as it was |
| Repository.FilterKeepsNewestFirst | client/src/components/Projects.jsx:29 | filtering a newest-first list keeps it newest first |
| Repository.InsertNewestFirst | server/controllers/projectController.js:8 | placing a record by creation time keeps the list newest first and adds exactly that record |
| Repository.List | server/controllers/projectController.js:8 | the listing holds every stored record, only stored records, newest first, one per record |
| Repository.NewestFirstUnique | server/controllers/projectController.js:8 | two newest-first lists of the same records are equal |
| Repository.ListingUnique | server/controllers/projectController.js:8 | a collection has exactly one listing |
| JsStrings.Trim | server/controllers/projectController.js:32 | the result has no whitespace at either end and is the input with only whitespace removed around it |
| JsStrings.TrimIgnoresLeadingWhitespace | server/controllers/projectController.js:32 | whitespace in front of a text does not survive trimming |
| JsStrings.Split | server/controllers/projectController.js:32 | splitting on a character yields one more piece than the text has separators, none containing the separator |
| JsStrings.JoinSplit | server/controllers/projectController.js:32 | joining the pieces of a split with the separator gives back the text |
| JsStrings.SplitJoinPadded | client/src/components/AdminDashboard.jsx:364 | splitting text joined with a separator plus padding gives back the elements, each after the first carrying the padding |
| JsStrings.SplitJoin | client/src/components/AdminDashboard.jsx:365 | joining elements free of the separator and splitting again gives back the elements |
| JsStrings.ToLowerIdempotent | client/src/components/AdminDashboard.jsx:213-217 | lower-casing twice is lower-casing once |
| JsStrings.DecimalRoundTrip | server/routes/projectRoutes.js:18 | the decimal text of a timestamp reads back as that timestamp |
| JsStrings.DecimalInjective | server/routes/projectRoutes.js:18 | different timestamps have different decimal texts |
| Seqs.FilterAppend | client/src/components/Projects.jsx:29 | filtering a concatenation is the concatenation of the filtered parts |
| Seqs.ReverseReverse | client/src/components/AdminDashboard.jsx:64 | reversing twice gives back the list |
| AdminDashboard.FilteredMessages | client/src/components/AdminDashboard.jsx:213-217 | the search keeps exactly the messages whose name, subject or e-mail contains the term, ignoring case |
| AdminDashboard.EmptySearchShowsAll | client/src/components/AdminDashboard.jsx:213-217 | an empty search shows every message in order |
| AdminDashboard.SearchIgnoresCase | client/src/components/AdminDashboard.jsx:213-217 | a term and its lower-case form find the same messages |
| AdminDashboard.BodyNotSearched | client/src/components/AdminDashboard.jsx:213-217 | changing a message's text never changes whether it matches |
| AdminDashboard.DisplayedOldestFirst | client/src/components/AdminDashboard.jsx:64 | the dashboard shows every message of the collection, oldest first |
| AdminDashboard.EditCategory | client/src/components/AdminDashboard.jsx:355-358 | the form opens on a known category: the project's own one if known, else the default |
| AdminDashboard.ProjectToForm | client/src/components/AdminDashboard.jsx:361-367 | the form shows the stored title, description, flag and links, tags joined by `, `, achievements joined by newlines |
| AdminDashboard.FormToPayload | client/src/components/AdminDashboard.jsx:93-105 | title, description, category, tags and achievements are sent as the form holds them, the flag as `"true"`/`"false"`, each link as its text or `"undefined"` when absent, and no image unless a new file is chosen |
| AdminDashboard.TechRoundTrip | client/src/components/AdminDashboard.jsx:364 | trimmed, comma-free tags survive the trip through the form and the server's split unchanged |
| AdminDashboard.AchievementsRoundTrip | client/src/components/AdminDashboard.jsx:365 | non-empty, trimmed one-line achievements survive the trip through the form unchanged |
| AdminDashboard.EditRoundTrip | client/src/components/AdminDashboard.jsx:361-367 | saving an untouched edit form writes the project back exactly as it was, for projects whose lists and links survive the form |
| AdminDashboard.UnchangedEditIsNoOp | server/controllers/projectController.js:58-98 | at the server, such a save answers 200 with the stored record and leaves the collection unchanged |
| AdminDashboard.EditAccepted | client/src/components/AdminDashboard.jsx:93-112 | the payload the edit form builds for any stored project is accepted by the server (whether the browser lets the form through is UntouchedFormSubmittable) |
| AdminDashboard.AbsentLinksBecomeUndefined | client/src/components/AdminDashboard.jsx:98-99 | a project without links gains the text `undefined` as both links when saved from the form |
| AdminDashboard.EmptyListsBecomeOneBlank | client/src/components/AdminDashboard.jsx:96 | the payload the edit form builds for a project with no tags and no achievements stores one empty entry in each; the browser blocks that form untouched, because the tags input is required |
| AdminDashboard.UntouchedFormSubmittable | client/src/components/AdminDashboard.jsx:453-526 | the untouched edit form of a stored project passes the browser's required check on title, category, tags and description exactly when its tags join to non-empty text, so a project without tags cannot be saved until a tag is typed |
| AdminDashboard.EmptyAchievementsBecomeOneBlank | client/src/components/AdminDashboard.jsx:96-112 | a project with tags but no achievements can be saved untouched through the browser and then stores one empty achievement |
| AdminDashboard.AfterDelete | client/src/components/AdminDashboard.jsx:82 | the local list keeps exactly the records with another id |
| AdminDashboard.AfterCreate | client/src/components/AdminDashboard.jsx:118 | the created record goes in front of the local list |
| AdminDashboard.AfterUpdate | client/src/components/AdminDashboard.jsx:112 | the record with the updated id is replaced and every other record kept in place |
| AdminDashboard.DeleteMatchesRefetch | client/src/components/AdminDashboard.jsx:134 | after a delete from a newest-first listing, such as the project list, the local list equals a fresh listing of the server's collection |
| AdminDashboard.DeletedMessageMatchesRefetch | client/src/components/AdminDashboard.jsx:82 | the message list is kept reversed, oldest first; after a delete it equals the fresh listing reversed in the same way |
| AdminDashboard.CreateMatchesRefetch | client/src/components/AdminDashboard.jsx:118 | after a create the local list equals a fresh listing |
| AdminDashboard.UpdateMatchesRefetch | client/src/components/AdminDashboard.jsx:112 | after an update the local list equals a fresh listing |
| ProjectsPage.InitialFilterOffered | client/src/components/Projects.jsx:11 | the section opens on one of the offered categories |
| ProjectsPage.FilteredProjects | client/src/components/Projects.jsx:29 | exactly the projects of the chosen category are shown |
| ProjectsPage.FilterKeepsServerOrder | client/src/components/Projects.jsx:29 | the filter distributes over concatenation and keeps a newest-first listing newest first |
| ProjectsPage.TechTags | client/src/components/Projects.jsx:146-148 | an array shows each tag trimmed; text shows its comma-separated pieces trimmed; an absent value shows one empty tag |
| ProjectsPage.StoredTagsShownAsIs | client/src/components/Projects.jsx:146-148 | tags stored trimmed are shown exactly as stored |
| ProjectsPage.StripBullet | client/src/components/Projects.jsx:161 | a leading `•` or `-` and the whitespace after it are removed, and nothing else; other entries are unchanged |
| ProjectsPage.DisplayedAchievements | client/src/components/Projects.jsx:154-161 | the section is shown exactly for an array or non-empty text; it lists the visible entries in their stored order, each with its bullet stripped, and nothing else |
| ProjectsPage.OneAchievementShown | client/src/components/Projects.jsx:154-161 | a single entry is listed, with its bullet stripped, exactly when it is visible |
| ProjectsPage.AchievementsShownInOrder | client/src/components/Projects.jsx:154-161 | the entries shown for two stored lists one after the other are those of the first followed by those of the second, repetitions kept |
| ProjectsPage.StoredAchievementsShownAsIs | client/src/components/Projects.jsx:154-161 | stored achievements without a bullet are shown exactly as stored |
| ProjectsPage.BlankEntriesHidden | client/src/components/Projects.jsx:158 | blank entries are never listed |

## Left out

- E-mail transport: the mail is produced as a value; its delivery is an input, and the transporter setup and logging are not modelled.
- Token signing and password hashing are parameters; the JSON Web Token format, its verification and bcrypt are not modelled.
- The `protect` middleware is reduced to an "authenticated" flag; server/middleware/authMiddleware.js is not part of this model.
- The user and message schemas (server/models/User.js, server/models/Message.js) are not part of this model; the message fields are modelled as the four required texts the controller checks.
- The message routes file is not part of this model; the message operations are modelled at the controller.
- Disk storage internals: directory creation, the working directory, and the resume route reading `../uploads` from its own directory. The model assumes this is the same directory the upload writes.
- Cloudinary configuration, server/index.js wiring, the resume model, the maintenance scripts and all presentation code are not modelled.
- Database failures are not modelled: the store never fails. So the `catch` blocks are reached only through schema refusals, which answer 400 in create and update (server/controllers/projectController.js:51, :96; server/controllers/certificateController.js:32, :58). The 500 replies of the list and delete `catch` blocks (projectController.js:16, :119; certificateController.js:16, :81; messageController.js:81, :100, :116) are not modelled.
- ProjectController.UpdateProject: an id that is not a well-formed ObjectId is not modelled (ids are natural numbers). In the code, `findById` throws a cast error for it, and the answer is 400 (server/controllers/projectController.js:60, :96), not 404.
- ProjectController.DeleteProject: a malformed id is not modelled; the code answers 500 for it (server/controllers/projectController.js:105, :119), not 404.
- CertificateController.UpdateCertificate: a malformed id is not modelled; the code answers 400 for it (server/controllers/certificateController.js:41, :58), not 404.
- CertificateController.DeleteCertificate: a malformed id is not modelled; the code answers 500 for it (server/controllers/certificateController.js:67, :81), not 404.
- MessageController.DeleteMessage: a malformed id is not modelled; the code answers 500 for it (server/controllers/messageController.js:109, :116), not 404.
- The exact Mongoose error texts are replaced by fixed messages; only the status codes and the accepted/refused split are modelled.
- Numbers, `null` and nested objects in a JSON body are not modelled; a field is missing, text, a boolean or an array of text.
- `toLowerCase` is modelled on ASCII letters only.
- Concurrency between requests is not modelled; each operation is atomic.
- A rejected upload answers 500 through Express's default error handler, because the filters pass a string as the error.
- The client's delete of a project or certificate, and its create and update of a certificate (client/src/components/AdminDashboard.jsx:133, 147, 151, 167), call an `axios` that the file never imports, so they fail before reaching the server. Only the local list update they would make is modelled.
- ProjectController.CreateProject: a body `createdAt` or `_id` is not modelled. The controller passes the whole body on (server/controllers/projectController.js:25), and the schema declares `createdAt` (server/models/Project.js:43-46), so such a field would replace the server's creation time or id, or give a 400 when it does not cast. The model always assigns both.
- ProjectController.UpdateProject: a body `createdAt` or `_id` is not modelled; the update would overwrite the stored creation time, which the model keeps.
- CertificateController.CreateCertificate: a body `createdAt` or `_id` is not modelled (server/controllers/certificateController.js:25, server/models/Certificate.js:26-29); the model always assigns both.
- CertificateController.UpdateCertificate: a body `createdAt` or `_id` is not modelled (server/controllers/certificateController.js:47); the model keeps the stored creation time.
- Repository.Valid: the distinct creation times it requires hold only because the model never takes a creation time from a request body; a body that sets one could repeat a stored time.
- AdminDashboard.FilteredMessages: the page would throw on a message lacking a name, subject or e-mail; the model's messages always carry all three, so that failure is not represented.

=== FILE: admin_dashboard.dfy ===
/**
 * The pure parts of the administrator dashboard
 * (client/src/components/AdminDashboard.jsx): the message search, the
 * order messages are shown in, the project edit form and the payload it
 * submits, and the local list updates made after a successful write.
 */
module AdminDashboard {
  import opened Wrappers
  import opened JsStrings
  import opened Seqs
  import opened Values
  import opened Http
  import opened Repository
  import opened ProjectModel
  import opened ProjectController
  import opened MessageController
  import Categories

  /* ---------- messages ---------- */

  /** A message matches the search term when its name, subject or e-mail
      contains the term, ignoring ASCII case. The body is not searched. */
  predicate Matches(m: Message, term: string) {
    var t := ToLower(term);
    Contains(ToLower(m.name), t) || Contains(ToLower(m.subject), t) || Contains(ToLower(m.email), t)
  }

  /** `filteredMessages`. */
  function FilteredMessages(ms: seq<Record<Message>>, term: string): (r: seq<Record<Message>>)
    ensures |r| <= |ms|
    ensures forall i :: 0 <= i < |r| ==> r[i] in ms && Matches(r[i].fields, term)
    ensures forall i :: 0 <= i < |ms| && Matches(ms[i].fields, term) ==> ms[i] in r
  {
    Filter(ms, (x: Record<Message>) => Matches(x.fields, term))
  }

  /** An empty search shows every message, in order. */
  lemma EmptySearchShowsAll(ms: seq<Record<Message>>)
    ensures FilteredMessages(ms, "") == ms
  {
    forall i | 0 <= i < |ms| ensures Matches(ms[i].fields, "") {
      ContainsEmpty(ToLower(ms[i].fields.name));
    }
    FilterAll(ms, (x: Record<Message>) => Matches(x.fields, ""));
  }

  /** The search does not depend on the case of the term. */
  lemma SearchIgnoresCase(ms: seq<Record<Message>>, term: string)
    ensures FilteredMessages(ms, ToLower(term)) == FilteredMessages(ms, term)
  {
    ToLowerIdempotent(term);
    FilterSame(ms, (x: Record<Message>) => Matches(x.fields, ToLower(term)),
                   (x: Record<Message>) => Matches(x.fields, term));
  }

  /** Two messages that differ only in their bodies match the same searches. */
  lemma BodyNotSearched(m: Message, body: string, term: string)
    ensures Matches(m.(message := body), term) == Matches(m, term)
  {
  }

  /** The dashboard shows the server's list reversed. */
  function DisplayedMessages(serverList: seq<Record<Message>>): seq<Record<Message>> {
    Reverse(serverList)
  }

  predicate SortedOldestFirst<T>(r: seq<Record<T>>) {
    forall i, j :: 0 <= i < j < |r| ==> r[i].createdAt < r[j].createdAt
  }

  /** Since the server lists newest first, the dashboard shows messages
      oldest first, and shows all of them. */
  lemma DisplayedOldestFirst(serverList: seq<Record<Message>>, s: MessageStore)
    requires IsListing(serverList, s)
    ensures SortedOldestFirst(DisplayedMessages(serverList))
    ensures forall id :: id in s.docs ==> s.docs[id] in DisplayedMessages(serverList)
    ensures |DisplayedMessages(serverList)| == |serverList|
  {
    var d := DisplayedMessages(serverList);
    forall id | id in s.docs ensures s.docs[id] in d {
      var k :| 0 <= k < |serverList| && serverList[k] == s.docs[id];
      assert d[|serverList| - 1 - k] == serverList[k];
    }
  }

  /* ---------- the project edit form ---------- */

  /** The project form: every field as the form holds it. A newly chosen
      image travels separately as the upload. */
  datatype ProjectForm = ProjectForm(
    title: string,
    description: string,
    tech: string,
    category: string,
    githubLink: Option<string>,
    liveLink: Option<string>,
    achievements: string,
    isFeatured: bool)

  /** The category the edit form opens on: a known one is kept, any other
      falls back to the default. */
  function EditCategory(c: string): (r: string)
    ensures r in Categories.ALL
    ensures c in Categories.ALL ==> r == c
    ensures c !in Categories.ALL ==> r == Categories.DEFAULT
  {
    if c in Categories.ALL then c else Categories.DEFAULT
  }

  /** Opening a stored project for editing. */
  function ProjectToForm(p: Project): (f: ProjectForm)
    ensures f.tech == Join(p.tech, ", ") && f.achievements == Join(p.achievements, "\n")
    ensures f.category == EditCategory(p.category)
    ensures f.title == p.title && f.description == p.description && f.isFeatured == p.isFeatured
    ensures f.githubLink == p.githubLink && f.liveLink == p.liveLink
  {
    ProjectForm(p.title, p.description, Join(p.tech, ", "), EditCategory(p.category),
                p.githubLink, p.liveLink, Join(p.achievements, "\n"), p.isFeatured)
  }

  /** How `FormData` spells a missing value. */
  const UNDEFINED := "undefined"

  /** `FormData.append` of a value the form may lack: an absent value is sent
      as the text `"undefined"`. */
  function FormText(v: Option<string>): string {
    if v.Some? then v.value else UNDEFINED
  }

  /** The multipart body the form submits; every field is text and the
      image is left to the upload. */
  function FormToPayload(f: ProjectForm): (p: ProjectPayload)
    ensures p.image.Missing?
    ensures p.tech == Str(f.tech) && p.achievements == Str(f.achievements)
    ensures p.isFeatured == Str(BoolText(f.isFeatured))
    ensures p.title == Str(f.title) && p.description == Str(f.description)
    ensures p.category == Str(f.category)
    ensures f.githubLink.Some? ==> p.githubLink == Str(f.githubLink.value)
    ensures f.githubLink.None? ==> p.githubLink == Str(UNDEFINED)
    ensures f.liveLink.Some? ==> p.liveLink == Str(f.liveLink.value)
    ensures f.liveLink.None? ==> p.liveLink == Str(UNDEFINED)
  {
    ProjectPayload(
      Str(f.title), Str(f.description), Str(f.tech), Missing, Str(f.achievements),
      Str(BoolText(f.isFeatured)), Str(f.category), Str(FormText(f.githubLink)), Str(FormText(f.liveLink)))
  }

  /** What the server's normalisation makes of an edit form opened on `p`. */
  function EditPayload(p: Project): ProjectPayload {
    Normalise(FormToPayload(ProjectToForm(p)), None)
  }

  /** Tags that survive a trip through the form: trimmed and comma-free. */
  predicate TechSurvives(tech: seq<string>) {
    Join(tech, ", ") != "" && forall i :: 0 <= i < |tech| ==> IsTrimmed(tech[i]) && ',' !in tech[i]
  }

  /** Achievements that survive: present, non-empty, trimmed, one line each. */
  predicate AchievementsSurvive(ach: seq<string>) {
    |ach| > 0 && forall i :: 0 <= i < |ach| ==> ach[i] != "" && IsTrimmed(ach[i]) && '\n' !in ach[i]
  }

  /** Splitting tags joined with `", "` on the comma leaves a space in front
      of every tag but the first. */
  lemma SplitCommaSpace(tech: seq<string>)
    requires |tech| > 0 && forall i :: 0 <= i < |tech| ==> ',' !in tech[i]
    ensures Split(Join(tech, ", "), ',') == [tech[0]] + Padded(tech[1..], " ")
  {
    SplitJoinNoPrefix(tech, ',', " ");
    assert [','] + " " == ", ";
  }

  /** Whitespace in front of a trimmed string is all `trim` removes. */
  lemma TrimPiece(w: string, x: string)
    requires AllWhitespace(w) && IsTrimmed(x)
    ensures Trim(w + x) == x
  {
    TrimIgnoresLeadingWhitespace(w, x);
    TrimTrimmed(x);
  }

  /** `TrimAll` is determined by what `trim` makes of each piece. */
  lemma TrimAllPointwise(xs: seq<string>, ys: seq<string>)
    requires |xs| == |ys| && forall i :: 0 <= i < |xs| ==> Trim(xs[i]) == ys[i]
    ensures TrimAll(xs) == ys
  {
  }

  /** Trimming removes whitespace padding from trimmed pieces again. */
  lemma TrimPadded(xs: seq<string>, w: string)
    requires |xs| > 0 && AllWhitespace(w)
    requires forall i :: 0 <= i < |xs| ==> IsTrimmed(xs[i])
    ensures TrimAll([xs[0]] + Padded(xs[1..], w)) == xs
  {
    var pieces := [xs[0]] + Padded(xs[1..], w);
    forall i | 0 <= i < |xs| ensures Trim(pieces[i]) == xs[i] {
      if i == 0 {
        TrimTrimmed(xs[0]);
      } else {
        assert pieces[i] == w + xs[i];
        TrimPiece(w, xs[i]);
      }
    }
    TrimAllPointwise(pieces, xs);
  }

  /** Trimming removes the space `", "` left in front of each tag. */
  lemma TrimCommaSpacePieces(tech: seq<string>)
    requires |tech| > 0 && forall i :: 0 <= i < |tech| ==> IsTrimmed(tech[i])
    ensures TrimAll([tech[0]] + Padded(tech[1..], " ")) == tech
  {
    assert IsWhitespace(" "[0]);
    TrimPadded(tech, " ");
  }

  /** Joining tags with `", "` in the form and splitting them again on the
      server gives back the same tags. */
  lemma TechRoundTrip(tech: seq<string>)
    requires TechSurvives(tech)
    ensures NormaliseTech(Str(Join(tech, ", "))) == Strs(tech)
  {
    assert |tech| > 0;
    SplitCommaSpace(tech);
    TrimCommaSpacePieces(tech);
  }

  /** Joining achievements with newlines in the form and splitting them
      again on the server gives back the same achievements. */
  lemma AchievementsRoundTrip(ach: seq<string>)
    requires AchievementsSurvive(ach)
    ensures NormaliseAchievements(Str(Join(ach, "\n"))) == Strs(ach)
  {
    var text := Join(ach, "\n");
    SplitJoin(ach, '\n');
    assert ['\n'] == "\n";
    var trimmed := TrimAll(ach);
    forall i | 0 <= i < |ach| ensures trimmed[i] == ach[i] { TrimTrimmed(ach[i]); }
    assert trimmed == ach;
    FilterAll(ach, NonEmpty);
    assert text != "" by { assert |Split(text, '\n')| > 0; }
  }

  /** The form shows a project's own fields: its edit payload sets each one
      to the stored value when the project's lists survive the form. */
  predicate SurvivesEdit(p: Project) {
    && WellFormed(p)
    && TechSurvives(p.tech)
    && AchievementsSurvive(p.achievements)
    && p.category in Categories.ALL
    && p.githubLink.Some? && p.liveLink.Some?
  }

  /** The payload that names every field of `p` with its stored value. */
  function OwnFields(p: Project): ProjectPayload
    requires p.githubLink.Some? && p.liveLink.Some?
  {
    ProjectPayload(Str(p.title), Str(p.description), Strs(p.tech), Missing, Strs(p.achievements),
                   Bool(p.isFeatured), Str(p.category), Str(p.githubLink.value), Str(p.liveLink.value))
  }

  /** Writing a well-formed project's own fields over it changes nothing. */
  lemma OwnFieldsUpdate(p: Project)
    requires WellFormed(p) && p.githubLink.Some? && p.liveLink.Some?
    ensures ApplyUpdate(p, OwnFields(p)) == Ok(p)
  {
    TrimTrimmed(p.title);
    TrimTrimmed(p.description);
    TrimTrimmed(p.category);
    TrimTrimmed(p.githubLink.value);
    TrimTrimmed(p.liveLink.value);
  }

  /** Saving the edit form without touching it writes the project back unchanged. */
  lemma EditRoundTrip(p: Project)
    requires SurvivesEdit(p)
    ensures ApplyUpdate(p, EditPayload(p)) == Ok(p)
  {
    EditPayloadShape(p);
    TechRoundTrip(p.tech);
    AchievementsRoundTrip(p.achievements);
    assert EditPayload(p) == OwnFields(p);
    OwnFieldsUpdate(p);
  }

  /** At the controller: an unchanged edit leaves the stored collection as it was. */
  lemma UnchangedEditIsNoOp(s: ProjectStore, id: Id)
    requires ProjectController.Consistent(s) && id in s.docs && SurvivesEdit(s.docs[id].fields)
    ensures UpdateProject(s, id, FormToPayload(ProjectToForm(s.docs[id].fields)), None)
         == (Success(OK, s.docs[id]), s)
  {
    EditRoundTrip(s.docs[id].fields);
    ReplaceUnchanged(s, id);
  }

  /** The payload the edit form builds for any stored project is accepted. */
  lemma EditAccepted(p: Project)
    requires WellFormed(p)
    ensures ApplyUpdate(p, EditPayload(p)).Ok?
  {
    EditPayloadShape(p);
    TrimTrimmed(p.title);
    TrimTrimmed(p.description);
    if p.category in Categories.ALL {
      TrimTrimmed(p.category);
    } else {
      DefaultCategoryTrimmed();
    }
  }

  /** The edit payload sends the stored text fields as they are, the flag as
      a boolean, no image, and nothing the schema cannot cast. */
  lemma EditPayloadShape(p: Project)
    ensures EditPayload(p).title == Str(p.title)
    ensures EditPayload(p).description == Str(p.description)
    ensures EditPayload(p).category == Str(EditCategory(p.category))
    ensures EditPayload(p).image == Missing
    ensures EditPayload(p).isFeatured == Bool(p.isFeatured)
    ensures !HasCastError(EditPayload(p))
  {
  }

  lemma DefaultCategoryTrimmed()
    ensures Trim(Categories.DEFAULT) == Categories.DEFAULT != ""
  {
    assert IsTrimmed(Categories.DEFAULT);
    TrimTrimmed(Categories.DEFAULT);
  }

  /** A project with no links gains the text `"undefined"` as both links when
      it is saved from the edit form. */
  lemma AbsentLinksBecomeUndefined(p: Project)
    requires WellFormed(p) && p.githubLink.None? && p.liveLink.None?
    ensures ApplyUpdate(p, EditPayload(p)).Ok?
    ensures ApplyUpdate(p, EditPayload(p)).value.githubLink == Some(UNDEFINED)
    ensures ApplyUpdate(p, EditPayload(p)).value.liveLink == Some(UNDEFINED)
  {
    EditAccepted(p);
    UndefinedTrimmed();
    assert EditPayload(p).githubLink == Str(UNDEFINED) && EditPayload(p).liveLink == Str(UNDEFINED);
  }

  lemma UndefinedTrimmed()
    ensures Trim(UNDEFINED) == UNDEFINED
  {
    assert IsTrimmed(UNDEFINED);
    TrimTrimmed(UNDEFINED);
  }

  /** In the payload the edit form builds, an empty tag or achievement list
      is empty text, which the server leaves as text and the schema stores
      as one empty entry. */
  lemma EmptyListsBecomeOneBlank(p: Project)
    requires WellFormed(p) && p.tech == [] && p.achievements == []
    ensures ApplyUpdate(p, EditPayload(p)).Ok?
    ensures ApplyUpdate(p, EditPayload(p)).value.tech == [""]
    ensures ApplyUpdate(p, EditPayload(p)).value.achievements == [""]
  {
    EditAccepted(p);
  }

  /** The browser's `required` check on the edit form: the title, category,
      tags and description inputs must not be empty. */
  predicate Submittable(f: ProjectForm) {
    f.title != "" && f.category != "" && f.tech != "" && f.description != ""
  }

  /** The untouched edit form of a stored project gets past the browser's
      check exactly when its tags join to non-empty text; a project without
      tags cannot be saved until a tag is typed. */
  lemma UntouchedFormSubmittable(p: Project)
    requires WellFormed(p)
    ensures Submittable(ProjectToForm(p)) <==> Join(p.tech, ", ") != ""
    ensures p.tech == [] ==> !Submittable(ProjectToForm(p))
  {
  }

  /** A project with tags but no achievements can be saved untouched, and
      then stores one empty achievement. */
  lemma EmptyAchievementsBecomeOneBlank(p: Project)
    requires WellFormed(p) && p.achievements == [] && Submittable(ProjectToForm(p))
    ensures ApplyUpdate(p, EditPayload(p)).Ok?
    ensures ApplyUpdate(p, EditPayload(p)).value.achievements == [""]
  {
    EditAccepted(p);
  }

  /* ---------- local list updates ---------- */

  /** `list.filter(x => x._id !== id)`. */
  function AfterDelete<T(==)>(xs: seq<Record<T>>, id: Id): (r: seq<Record<T>>)
    ensures forall i :: 0 <= i < |r| ==> r[i] in xs && r[i].id != id
    ensures forall i :: 0 <= i < |xs| && xs[i].id != id ==> xs[i] in r
  {
    Filter(xs, (x: Record<T>) => x.id != id)
  }

  /** `[created, ...list]`. */
  function AfterCreate<T>(xs: seq<Record<T>>, created: Record<T>): (r: seq<Record<T>>)
    ensures |r| == |xs| + 1 && r[0] == created && r[1..] == xs
  {
    [created] + xs
  }

  /** `list.map(x => x._id === id ? updated : x)`. */
  function AfterUpdate<T>(xs: seq<Record<T>>, id: Id, updated: Record<T>): (r: seq<Record<T>>)
    ensures |r| == |xs|
    ensures forall i :: 0 <= i < |xs| ==> r[i] == (if xs[i].id == id then updated else xs[i])
  {
    seq(|xs|, i requires 0 <= i < |xs| => if xs[i].id == id then updated else xs[i])
  }

  /** After a delete the local copy of a newest-first listing is what a
      refetched listing would return. */
  lemma DeleteMatchesRefetch<T>(xs: seq<Record<T>>, s: Store<T>, id: Id, refetched: seq<Record<T>>)
    requires Valid(s) && id in s.docs && IsListing(xs, s)
    requires IsListing(refetched, Remove(s, id))
    ensures AfterDelete(xs, id) == refetched
  {
    var r := AfterDelete(xs, id);
    FilterKeepsNewestFirst(xs, (x: Record<T>) => x.id != id);
    var s' := Remove(s, id);
    forall i | 0 <= i < |r| ensures r[i].id in s'.docs && s'.docs[r[i].id] == r[i] {
      var k :| 0 <= k < |xs| && xs[k] == r[i];
    }
    forall k | k in s'.docs ensures s'.docs[k] in r {
      var j :| 0 <= j < |xs| && xs[j] == s.docs[k];
    }
    ListingUnique(r, refetched, s');
  }

  /** The message list is shown oldest first; deleting from it leaves exactly
      the refetched listing as the dashboard would show it. */
  lemma DeletedMessageMatchesRefetch(serverList: seq<Record<Message>>, s: MessageStore, id: Id,
                                     refetched: seq<Record<Message>>)
    requires Valid(s) && id in s.docs && IsListing(serverList, s)
    requires IsListing(refetched, Remove(s, id))
    ensures AfterDelete(DisplayedMessages(serverList), id) == DisplayedMessages(refetched)
  {
    FilterReverse(serverList, (x: Record<Message>) => x.id != id);
    DeleteMatchesRefetch(serverList, s, id, refetched);
  }

  /** After a create the local list, with the created record in front, is
      what a refetched listing would return. */
  lemma CreateMatchesRefetch<T>(xs: seq<Record<T>>, s: Store<T>, created: Record<T>,
                                     s': Store<T>, refetched: seq<Record<T>>)
    requires Valid(s) && IsListing(xs, s)
    requires created.id !in s.docs && s'.docs == s.docs[created.id := created]
    requires forall id :: id in s.docs ==> s.docs[id].createdAt < created.createdAt
    requires IsListing(refetched, s')
    ensures AfterCreate(xs, created) == refetched
  {
    var r := AfterCreate(xs, created);
    PrependNewest(created, xs);
    forall i | 0 <= i < |r| ensures r[i].id in s'.docs && s'.docs[r[i].id] == r[i] {
      if i > 0 { assert r[i] == xs[i - 1]; }
    }
    forall k | k in s'.docs ensures s'.docs[k] in r {
      if k != created.id { assert s.docs[k] in xs; }
    }
    ListingUnique(r, refetched, s');
  }

  /** Replacing records by ones of the same creation time keeps the order. */
  lemma UpdateKeepsNewestFirst<T>(xs: seq<Record<T>>, id: Id, updated: Record<T>)
    requires SortedNewestFirst(xs)
    requires forall i :: 0 <= i < |xs| && xs[i].id == id ==> xs[i].createdAt == updated.createdAt
    ensures SortedNewestFirst(AfterUpdate(xs, id, updated))
  {
    var r := AfterUpdate(xs, id, updated);
    forall i, j | 0 <= i < j < |r| ensures r[i].createdAt > r[j].createdAt {
      assert r[i].createdAt == xs[i].createdAt && r[j].createdAt == xs[j].createdAt;
    }
  }

  /** After an update the local list, with the matching record replaced, is
      what a refetched listing would return. */
  lemma UpdateMatchesRefetch<T>(xs: seq<Record<T>>, s: Store<T>, id: Id, fields: T,
                                     refetched: seq<Record<T>>)
    requires Valid(s) && id in s.docs && IsListing(xs, s)
    requires IsListing(refetched, Replace(s, id, fields))
    ensures AfterUpdate(xs, id, Replace(s, id, fields).docs[id]) == refetched
  {
    var s' := Replace(s, id, fields);
    UpdatedListing(xs, s, id, fields);
    ListingUnique(AfterUpdate(xs, id, s'.docs[id]), refetched, s');
  }

  /** The local list after an update is a listing of the updated store. */
  lemma UpdatedListing<T>(xs: seq<Record<T>>, s: Store<T>, id: Id, fields: T)
    requires Valid(s) && id in s.docs && IsListing(xs, s)
    ensures IsListing(AfterUpdate(xs, id, Replace(s, id, fields).docs[id]), Replace(s, id, fields))
  {
    var s' := Replace(s, id, fields);
    var u := s'.docs[id];
    var r := AfterUpdate(xs, id, u);
    UpdateKeepsNewestFirst(xs, id, u);
    UpdatedFromStore(xs, s, id, fields);
    forall k | k in s'.docs ensures s'.docs[k] in r {
      var j :| 0 <= j < |xs| && xs[j] == s.docs[k];
      assert r[j] == s'.docs[k];
    }
  }

  lemma UpdatedFromStore<T>(xs: seq<Record<T>>, s: Store<T>, id: Id, fields: T)
    requires Valid(s) && id in s.docs
    requires forall i :: 0 <= i < |xs| ==> xs[i].id in s.docs && s.docs[xs[i].id] == xs[i]
    ensures var s' := Replace(s, id, fields);
            var r := AfterUpdate(xs, id, s'.docs[id]);
            forall i :: 0 <= i < |r| ==> r[i].id in s'.docs && s'.docs[r[i].id] == r[i]
  {
    var s' := Replace(s, id, fields);
    var r := AfterUpdate(xs, id, s'.docs[id]);
    forall i | 0 <= i < |r| ensures r[i].id in s'.docs && s'.docs[r[i].id] == r[i] {
      if xs[i].id != id {
        assert r[i] == xs[i];
      }
    }
  }
}

=== FILE: auth_controller.dfy ===
/**
 * Administrator login and the first-start bootstrap
 * (server/controllers/authController.js). Password checking and token
 * signing are library calls whose internals are not modelled: they are
 * passed in as functions, and the model states which arguments they get.
 */
module AuthController {
  import opened Wrappers
  import opened Http

  datatype User = User(id: nat, username: string, credential: string)

  /** The token payload. */
  datatype Claims = Claims(id: nat, username: string)

  /** The user data a successful login returns: no credential in it. */
  datatype UserSummary = UserSummary(id: nat, username: string)

  datatype LoginReply =
    | LoginOk(token: string, user: UserSummary)
    | LoginFailed(code: int, message: string)

  /** `expiresIn: '24h'`, in seconds. */
  const TOKEN_LIFETIME: nat := 24 * 60 * 60

  const FALLBACK_SECRET := "your_fallback_secret_key"
  const INVALID := "Invalid credentials"
  const DEFAULT_USERNAME := "admin"
  const DEFAULT_PASSWORD := "password123"

  /** `process.env.JWT_SECRET || fallback`: an unset or empty variable falls back. */
  function SigningSecret(env: Option<string>): (r: string)
    ensures env.Some? && env.value != "" ==> r == env.value
    ensures env.None? || env.value == "" ==> r == FALLBACK_SECRET
    ensures r != ""
  {
    if env.Some? && env.value != "" then env.value else FALLBACK_SECRET
  }

  /** `User.findOne({ username })`: the first user with that name, if any. */
  function FindByUsername(users: seq<User>, name: string): (r: Option<User>)
    ensures r.None? <==> forall i :: 0 <= i < |users| ==> users[i].username != name
    ensures r.Some? ==> r.value.username == name
    ensures r.Some? ==> exists i :: 0 <= i < |users| && users[i] == r.value &&
                          forall j :: 0 <= j < i ==> users[j].username != name
  {
    if |users| == 0 then None
    else if users[0].username == name then Some(users[0])
    else
      var r := FindByUsername(users[1..], name);
      assert r.Some? ==> exists i :: 0 <= i < |users| && users[i] == r.value &&
                          forall j :: 0 <= j < i ==> users[j].username != name by {
        if r.Some? {
          var k :| 0 <= k < |users[1..]| && users[1..][k] == r.value &&
                   forall j :: 0 <= j < k ==> users[1..][j].username != name;
          assert users[k + 1] == r.value;
        }
      }
      r
  }

  /** POST /api/auth/login. An unknown name and a wrong password give the
      same 401; otherwise the token signs the user's id and name with the
      configured secret for 24 hours. */
  function Login(
    users: seq<User>, username: string, password: string, env: Option<string>,
    comparePassword: (User, string) -> bool,
    sign: (Claims, string, nat) -> string)
    : (r: LoginReply)
    ensures r.LoginFailed? ==> r == LoginFailed(UNAUTHORIZED, INVALID)
    ensures r.LoginOk? <==>
              FindByUsername(users, username).Some? &&
              comparePassword(FindByUsername(users, username).value, password)
    ensures r.LoginOk? ==>
              var u := FindByUsername(users, username).value;
              && r.user == UserSummary(u.id, username)
              && r.token == sign(Claims(u.id, username), SigningSecret(env), TOKEN_LIFETIME)
  {
    match FindByUsername(users, username)
    case None => LoginFailed(UNAUTHORIZED, INVALID)
    case Some(u) =>
      if !comparePassword(u, password) then LoginFailed(UNAUTHORIZED, INVALID)
      else
        var claims := Claims(u.id, u.username);
        LoginOk(sign(claims, SigningSecret(env), TOKEN_LIFETIME), UserSummary(u.id, u.username))
  }

  /** A failed login reveals nothing: every failure is the same reply. */
  lemma FailuresIndistinguishable(
    users1: seq<User>, name1: string, password1: string,
    users2: seq<User>, name2: string, password2: string, env: Option<string>,
    comparePassword: (User, string) -> bool, sign: (Claims, string, nat) -> string)
    requires Login(users1, name1, password1, env, comparePassword, sign).LoginFailed?
    requires Login(users2, name2, password2, env, comparePassword, sign).LoginFailed?
    ensures Login(users1, name1, password1, env, comparePassword, sign)
         == Login(users2, name2, password2, env, comparePassword, sign)
  {
  }

  /** `createInitialAdmin`: an empty user collection gets the default
      administrator, whose credential is what saving the password produces
      (`hash`); a non-empty one is left alone. */
  function Bootstrap(users: seq<User>, freshId: nat, hash: string -> string): (r: seq<User>)
    ensures |users| == 0 ==> r == [User(freshId, DEFAULT_USERNAME, hash(DEFAULT_PASSWORD))]
    ensures |users| > 0 ==> r == users
    ensures |r| > 0
  {
    if |users| == 0 then [User(freshId, DEFAULT_USERNAME, hash(DEFAULT_PASSWORD))] else users
  }

  /** Running the bootstrap again, at any later start, changes nothing. */
  lemma BootstrapIdempotent(users: seq<User>, id1: nat, id2: nat, hash: string -> string)
    ensures Bootstrap(Bootstrap(users, id1, hash), id2, hash) == Bootstrap(users, id1, hash)
  {
  }

  /** On a fresh installation the default credentials log in, provided the
      password check accepts the password the credential was made from. */
  lemma DefaultAdminLogsIn(
    freshId: nat, env: Option<string>, hash: string -> string,
    comparePassword: (User, string) -> bool, sign: (Claims, string, nat) -> string)
    requires comparePassword(User(freshId, DEFAULT_USERNAME, hash(DEFAULT_PASSWORD)), DEFAULT_PASSWORD)
    ensures var r := Login(Bootstrap([], freshId, hash), DEFAULT_USERNAME, DEFAULT_PASSWORD,
                           env, comparePassword, sign);
            && r.LoginOk?
            && r.user == UserSummary(freshId, DEFAULT_USERNAME)
  {
  }
}

=== FILE: categories.dfy ===
/** The two project categories both client pages offer
    (client/src/components/Projects.jsx and AdminDashboard.jsx). */
module Categories {

  const WEB_DEVELOPMENT := "Web Development Project"
  const MACHINE_LEARNING := "Machine Learning Projects"

  const ALL: seq<string> := [WEB_DEVELOPMENT, MACHINE_LEARNING]

  /** The category a page starts on and falls back to. */
  const DEFAULT := WEB_DEVELOPMENT
}

=== FILE: certificate_controller.dfy ===
/** The certificate endpoints (server/controllers/certificateController.js). */
module CertificateController {
  import opened Wrappers
  import opened Http
  import opened Repository
  import opened CertificateModel

  type CertificateStore = Store<Certificate>

  predicate Consistent(s: CertificateStore) {
    Valid(s) && forall id :: id in s.docs ==> WellFormed(s.docs[id].fields)
  }

  /** GET /api/certificates: every certificate, newest first, with its count. */
  method GetCertificates(s: CertificateStore) returns (r: ListReply<Record<Certificate>>)
    requires Valid(s)
    ensures IsListing(r.data, s)
    ensures r.count == |r.data| == |s.docs|
  {
    var data := List(s);
    r := MakeListReply(data);
  }

  /** POST /api/certificates: a body the schema rejects is a 400 and stores nothing. */
  function CreateCertificate(s: CertificateStore, body: CertificatePayload)
    : (res: (Reply<Record<Certificate>>, CertificateStore))
    requires Consistent(s)
    ensures Consistent(res.1)
    ensures res.0.Success? <==> Build(body).Ok?
    ensures res.0.Failure? ==> res.0.code == BAD_REQUEST && res.1 == s
    ensures res.0.Success? ==>
              && res.0.code == CREATED
              && res.0.data.id !in s.docs
              && res.0.data.fields == Build(body).value
              && res.1.docs == s.docs[res.0.data.id := res.0.data]
  {
    match Build(body)
    case Err(e) => (Failure(BAD_REQUEST, e), s)
    case Ok(c) =>
      var (s', rec) := Insert(s, c);
      (Success(CREATED, rec), s')
  }

  /** PUT /api/certificates/:id: unknown id is a 404 with no write; otherwise
      only the fields in the body change, and id and creation time stay. */
  function UpdateCertificate(s: CertificateStore, id: Id, body: CertificatePayload)
    : (res: (Reply<Record<Certificate>>, CertificateStore))
    requires Consistent(s)
    ensures Consistent(res.1)
    ensures id !in s.docs ==> res.0 == Failure(NOT_FOUND, "Certificate not found") && res.1 == s
    ensures res.0.Failure? ==> res.1 == s
    ensures res.0.Failure? && id in s.docs ==> res.0.code == BAD_REQUEST
    ensures id in s.docs ==> (res.0.Success? <==> ApplyUpdate(s.docs[id].fields, body).Ok?)
    ensures res.0.Success? ==>
              && id in s.docs
              && res.0.code == OK
              && res.0.data.id == id
              && res.0.data.createdAt == s.docs[id].createdAt
              && res.0.data.fields == ApplyUpdate(s.docs[id].fields, body).value
              && KeepsMissing(s.docs[id].fields, body, res.0.data.fields)
              && StoresSupplied(body, res.0.data.fields)
              && res.1 == Replace(s, id, res.0.data.fields)
  {
    if id !in s.docs then (Failure(NOT_FOUND, "Certificate not found"), s)
    else
      match ApplyUpdate(s.docs[id].fields, body)
      case Err(e) => (Failure(BAD_REQUEST, e), s)
      case Ok(c) =>
        var s' := Replace(s, id, c);
        (Success(OK, s'.docs[id]), s')
  }

  /** DELETE /api/certificates/:id. */
  function DeleteCertificate(s: CertificateStore, id: Id): (res: (Reply<Empty>, CertificateStore))
    requires Consistent(s)
    ensures Consistent(res.1)
    ensures id !in s.docs ==> res.0 == Failure(NOT_FOUND, "Certificate not found") && res.1 == s
    ensures id in s.docs ==>
              && res.0 == Success(OK, Empty)
              && res.1.docs.Keys == s.docs.Keys - {id}
              && (forall k :: k in res.1.docs ==> res.1.docs[k] == s.docs[k])
  {
    if id !in s.docs then (Failure(NOT_FOUND, "Certificate not found"), s)
    else (Success(OK, Empty), Remove(s, id))
  }
}

=== FILE: certificate_model.dfy ===
/**
 * The Certificate document schema (server/models/Certificate.js): `name`,
 * `issuer` and `date` are required, `description` and `link` optional; every
 * text path except `date` is trimmed.
 */
module CertificateModel {
  import opened Wrappers
  import opened JsStrings
  import opened Values

  datatype Certificate = Certificate(
    name: string,
    issuer: string,
    date: string,
    description: Option<string>,
    link: Option<string>)

  datatype CertificatePayload = CertificatePayload(
    name: Value,
    issuer: Value,
    date: Value,
    description: Value,
    link: Value)

  /** A new document before any field is supplied. */
  const Blank := Certificate("", "", "", None, None)

  /** The invariant of every stored certificate. */
  predicate WellFormed(c: Certificate) {
    && c.name != "" && c.issuer != "" && c.date != ""
    && IsTrimmed(c.name) && IsTrimmed(c.issuer)
    && (c.description.Some? ==> IsTrimmed(c.description.value))
    && (c.link.Some? ==> IsTrimmed(c.link.value))
  }

  /** Only an array can fail the cast to a text path. */
  predicate HasCastError(p: CertificatePayload) {
    p.name.Strs? || p.issuer.Strs? || p.date.Strs? || p.description.Strs? || p.link.Strs?
  }

  function Overlay(base: Certificate, p: CertificatePayload): Certificate {
    Certificate(
      TextOr(base.name, p.name, true),
      TextOr(base.issuer, p.issuer, true),
      TextOr(base.date, p.date, false),
      OptTextOr(base.description, p.description, true),
      OptTextOr(base.link, p.link, true))
  }

  predicate KeepsMissing(base: Certificate, p: CertificatePayload, c: Certificate) {
    && (p.name.Missing? ==> c.name == base.name)
    && (p.issuer.Missing? ==> c.issuer == base.issuer)
    && (p.date.Missing? ==> c.date == base.date)
    && (p.description.Missing? ==> c.description == base.description)
    && (p.link.Missing? ==> c.link == base.link)
  }

  predicate StoresSupplied(p: CertificatePayload, c: Certificate) {
    && (p.name.Str? ==> c.name == Trim(p.name.text))
    && (p.issuer.Str? ==> c.issuer == Trim(p.issuer.text))
    && (p.date.Str? ==> c.date == p.date.text)
    && (p.description.Str? ==> c.description == Some(Trim(p.description.text)))
    && (p.link.Str? ==> c.link == Some(Trim(p.link.text)))
    && (p.name.Bool? ==> c.name == BoolText(p.name.flag))
    && (p.issuer.Bool? ==> c.issuer == BoolText(p.issuer.flag))
    && (p.date.Bool? ==> c.date == BoolText(p.date.flag))
    && (p.description.Bool? ==> c.description == Some(BoolText(p.description.flag)))
    && (p.link.Bool? ==> c.link == Some(BoolText(p.link.flag)))
  }

  predicate MeetsRequired(c: Certificate) {
    c.name != "" && c.issuer != "" && c.date != ""
  }

  lemma OverlayStores(base: Certificate, p: CertificatePayload)
    ensures KeepsMissing(base, p, Overlay(base, p))
    ensures StoresSupplied(p, Overlay(base, p))
  {
  }

  /** The required validators pass on the overlay exactly when each required
      path is either left to a non-empty base value or supplied non-blank. */
  lemma OverlayRequired(base: Certificate, p: CertificatePayload)
    requires !HasCastError(p)
    ensures MeetsRequired(Overlay(base, p)) <==>
              && (if p.name.Missing? then base.name != "" else !BlankText(p.name, true))
              && (if p.issuer.Missing? then base.issuer != "" else !BlankText(p.issuer, true))
              && (if p.date.Missing? then base.date != "" else !BlankText(p.date, false))
  {
    TextOrNonEmpty(base.name, p.name, true);
    TextOrNonEmpty(base.issuer, p.issuer, true);
    TextOrNonEmpty(base.date, p.date, false);
  }

  /** Overlaying onto trimmed text keeps the `trim` paths trimmed. */
  lemma OverlayWellFormed(base: Certificate, p: CertificatePayload)
    requires !HasCastError(p)
    requires IsTrimmed(base.name) && IsTrimmed(base.issuer)
    requires base.description.Some? ==> IsTrimmed(base.description.value)
    requires base.link.Some? ==> IsTrimmed(base.link.value)
    requires MeetsRequired(Overlay(base, p))
    ensures WellFormed(Overlay(base, p))
  {
  }

  lemma OverlayKeepsWellFormed(stored: Certificate, p: CertificatePayload)
    requires !HasCastError(p) && MeetsRequired(Overlay(stored, p))
    ensures WellFormed(stored) ==> WellFormed(Overlay(stored, p))
  {
    if WellFormed(stored) {
      OverlayWellFormed(stored, p);
    }
  }

  /** `Certificate.create(body)`. */
  function Build(p: CertificatePayload): (r: Result<Certificate>)
    ensures p.name.Missing? || p.issuer.Missing? || p.date.Missing? ==> r.Err?
    ensures p.name.Str? && AllWhitespace(p.name.text) ==> r.Err?
    ensures HasCastError(p) ==> r.Err?
    ensures r.Ok? ==> WellFormed(r.value) && StoresSupplied(p, r.value)
    ensures r.Ok? && p.description.Missing? ==> r.value.description.None?
    ensures r.Ok? && p.link.Missing? ==> r.value.link.None?
    ensures r.Ok? <==>
              && !HasCastError(p)
              && FillsRequired(p.name, true) && FillsRequired(p.issuer, true)
              && FillsRequired(p.date, false)
  {
    if HasCastError(p) then Err("Cast failed")
    else
      var c := Overlay(Blank, p);
      OverlayStores(Blank, p);
      OverlayRequired(Blank, p);
      if MeetsRequired(c) then
        OverlayWellFormed(Blank, p);
        Ok(c)
      else Err("Certificate validation failed")
  }

  /** `findByIdAndUpdate(id, body, {runValidators: true})`. */
  function ApplyUpdate(stored: Certificate, p: CertificatePayload): (r: Result<Certificate>)
    ensures HasCastError(p) ==> r.Err?
    ensures WellFormed(stored) && r.Ok? ==> WellFormed(r.value)
    ensures WellFormed(stored) && p.date == Str("") ==> r.Err?
    ensures r.Ok? ==> KeepsMissing(stored, p, r.value) && StoresSupplied(p, r.value)
    ensures WellFormed(stored) ==>
              (r.Ok? <==>
                 && !HasCastError(p)
                 && !BlankText(p.name, true) && !BlankText(p.issuer, true)
                 && !BlankText(p.date, false))
  {
    if HasCastError(p) then Err("Cast failed")
    else
      var c := Overlay(stored, p);
      OverlayStores(stored, p);
      OverlayRequired(stored, p);
      if MeetsRequired(c) then
        OverlayKeepsWellFormed(stored, p);
        Ok(c)
      else Err("Validation failed")
  }

  /** A body with no fields leaves a stored certificate as it is. */
  lemma EmptyUpdateKeeps(stored: Certificate)
    requires WellFormed(stored)
    ensures ApplyUpdate(stored, CertificatePayload(Missing, Missing, Missing, Missing, Missing)) == Ok(stored)
  {
  }

  /** A body with every required field given as non-blank text and no array
      where text is expected is accepted, with its text stored trimmed
      except the date. */
  lemma BuildAccepts(p: CertificatePayload)
    requires p.name.Str? && !AllWhitespace(p.name.text)
    requires p.issuer.Str? && !AllWhitespace(p.issuer.text)
    requires p.date.Str? && p.date.text != ""
    requires !p.description.Strs? && !p.link.Strs?
    ensures Build(p).Ok?
    ensures Build(p).value.name == Trim(p.name.text)
    ensures Build(p).value.issuer == Trim(p.issuer.text)
    ensures Build(p).value.date == p.date.text
  {
  }
}

=== FILE: http.dfy ===
/** The JSON envelopes the API answers with and the status codes it uses. */
module Http {

  const OK := 200
  const CREATED := 201
  const BAD_REQUEST := 400
  const UNAUTHORIZED := 401
  const NOT_FOUND := 404
  const SERVER_ERROR := 500

  /** `{success: true, data}` with a success code, or `{success: false, message}`. */
  datatype Reply<T> = Success(code: int, data: T) | Failure(code: int, message: string)

  /** The `data: {}` of a successful delete. */
  datatype Empty = Empty

  /** `{success: true, count, data}` of a list endpoint. */
  datatype ListReply<T> = ListReply(count: nat, data: seq<T>)

  /** The list envelope always counts exactly the records it carries. */
  function MakeListReply<T>(data: seq<T>): (r: ListReply<T>)
    ensures r.count == |r.data| && r.data == data
  {
    ListReply(|data|, data)
  }
}

=== FILE: js_strings.dfy ===
/**
 * The JavaScript string operations the portfolio code relies on: `trim`,
 * `split` on a single character, `join`, `includes`, `toLowerCase`, and the
 * decimal rendering of a number inside a template literal.
 */
module JsStrings {

  /** The characters `String.prototype.trim` removes and the regular-expression
      class `\s` matches: ECMAScript WhiteSpace and LineTerminator. */
  predicate IsWhitespace(c: char) {
    || c == '\t' || c == '\n' || c == '\U{B}' || c == '\U{C}' || c == '\r' || c == ' '
    || c == '\U{A0}' || c == '\U{1680}' || ('\U{2000}' <= c <= '\U{200A}')
    || c == '\U{2028}' || c == '\U{2029}' || c == '\U{202F}' || c == '\U{205F}'
    || c == '\U{3000}' || c == '\U{FEFF}'
  }

  predicate AllWhitespace(s: string) {
    forall i :: 0 <= i < |s| ==> IsWhitespace(s[i])
  }

  /** No whitespace at either end. */
  predicate IsTrimmed(s: string) {
    |s| == 0 || (!IsWhitespace(s[0]) && !IsWhitespace(s[|s| - 1]))
  }

  /** Length of the longest all-whitespace prefix. */
  function LeadingWhitespace(s: string): (k: nat)
    ensures k <= |s|
    ensures AllWhitespace(s[..k])
    ensures k < |s| ==> !IsWhitespace(s[k])
  {
    if |s| > 0 && IsWhitespace(s[0]) then 1 + LeadingWhitespace(s[1..]) else 0
  }

  /** Length of the longest all-whitespace suffix. */
  function TrailingWhitespace(s: string): (k: nat)
    ensures k <= |s|
    ensures AllWhitespace(s[|s| - k..])
    ensures k < |s| ==> !IsWhitespace(s[|s| - 1 - k])
  {
    if |s| > 0 && IsWhitespace(s[|s| - 1]) then 1 + TrailingWhitespace(s[..|s| - 1]) else 0
  }

  /** `s.trim()`: the text between the whitespace padding at both ends. */
  function Trim(s: string): (r: string)
    ensures IsTrimmed(r)
    ensures |r| <= |s|
    ensures exists i :: PaddedInfix(s, r, i)
  {
    var a := LeadingWhitespace(s);
    var t := s[a..];
    var b := TrailingWhitespace(t);
    var r := t[..|t| - b];
    assert PaddedInfix(s, r, a) by {
      assert r == s[a..a + |r|];
      assert s[a + |r|..] == t[|t| - b..];
    }
    r
  }

  /** `r` sits at position `i` of `s` with only whitespace around it. */
  predicate PaddedInfix(s: string, r: string, i: nat) {
    i + |r| <= |s| && r == s[i..i + |r|] && AllWhitespace(s[..i]) && AllWhitespace(s[i + |r|..])
  }

  /** Trimming leaves an already trimmed string alone. */
  lemma TrimTrimmed(s: string)
    requires IsTrimmed(s)
    ensures Trim(s) == s
  {
    assert LeadingWhitespace(s) == 0;
    assert s[0..] == s;
    assert TrailingWhitespace(s) == 0;
  }

  /** Trimming yields the empty string exactly for all-whitespace input. */
  lemma TrimBlank(s: string)
    ensures Trim(s) == "" <==> AllWhitespace(s)
  {
    var i: nat :| PaddedInfix(s, Trim(s), i);
    if Trim(s) == "" {
      forall k | 0 <= k < |s| ensures IsWhitespace(s[k]) {
        if k < i { assert s[..i][k] == s[k]; } else { assert s[i..][k - i] == s[k]; }
      }
    }
    if AllWhitespace(s) {
      assert LeadingWhitespace(s) == |s|;
    }
  }

  /** A character absent from the text is absent from its trimmed form. */
  lemma TrimKeepsOut(s: string, c: char)
    requires c !in s
    ensures c !in Trim(s)
  {
    var r := Trim(s);
    var i: nat :| PaddedInfix(s, r, i);
    forall k | 0 <= k < |r| ensures r[k] != c {
      assert r[k] == s[i + k];
    }
  }

  /** Whitespace in front of a string does not survive `trim`. */
  lemma {:induction false} TrimIgnoresLeadingWhitespace(w: string, s: string)
    requires AllWhitespace(w)
    ensures Trim(w + s) == Trim(s)
  {
    LeadingWhitespaceOfPadded(w, s);
    assert (w + s)[|w| + LeadingWhitespace(s)..] == s[LeadingWhitespace(s)..];
  }

  lemma {:induction false} LeadingWhitespaceOfPadded(w: string, s: string)
    requires AllWhitespace(w)
    ensures LeadingWhitespace(w + s) == |w| + LeadingWhitespace(s)
  {
    if |w| > 0 {
      assert (w + s)[1..] == w[1..] + s;
      LeadingWhitespaceOfPadded(w[1..], s);
    } else {
      assert w + s == s;
    }
  }

  /** `s.split(sep)` for a one-character separator: the pieces between
      separators, always at least one (`"".split(",")` is `[""]`). */
  function Split(s: string, sep: char): (r: seq<string>)
    ensures |r| == multiset(s)[sep] + 1
    ensures forall i :: 0 <= i < |r| ==> sep !in r[i]
  {
    if |s| == 0 then [""]
    else
      assert s == [s[0]] + s[1..];
      var rest := Split(s[1..], sep);
      if s[0] == sep then [""] + rest
      else [[s[0]] + rest[0]] + rest[1..]
  }

  /** `xs.join(sep)`. */
  function Join(xs: seq<string>, sep: string): string {
    if |xs| == 0 then ""
    else if |xs| == 1 then xs[0]
    else xs[0] + sep + Join(xs[1..], sep)
  }

  /** Putting a prefix on the first element puts it on the joined text. */
  lemma JoinPrependFirst(h: string, xs: seq<string>, sep: string)
    requires |xs| > 0
    ensures Join([h + xs[0]] + xs[1..], sep) == h + Join(xs, sep)
  {
    var ys := [h + xs[0]] + xs[1..];
    if |xs| > 1 {
      assert ys[1..] == xs[1..];
    }
  }

  /** Splitting on a character and joining with that character gives back the text. */
  lemma {:induction false} JoinSplit(s: string, sep: char)
    ensures Join(Split(s, sep), [sep]) == s
  {
    if |s| > 0 {
      assert s == [s[0]] + s[1..];
      JoinSplit(s[1..], sep);
      JoinSplitStep(s[0], s[1..], sep);
    }
  }

  lemma JoinSplitStep(c: char, t: string, sep: char)
    requires Join(Split(t, sep), [sep]) == t
    ensures Join(Split([c] + t, sep), [sep]) == [c] + t
  {
    SplitCons(c, t, sep);
    var rest := Split(t, sep);
    if c == sep {
      var xs := [""] + rest;
      assert xs[0] == "" && xs[1..] == rest && |xs| > 1;
    } else {
      JoinPrependFirst([c], rest, [sep]);
    }
  }

  /** A separator splits the text into the pieces on either side of it. */
  lemma {:induction false} SplitAround(a: string, b: string, sep: char)
    ensures Split(a + [sep] + b, sep) == Split(a, sep) + Split(b, sep)
  {
    if |a| == 0 {
      assert a + [sep] + b == [sep] + b;
      SplitCons(sep, b, sep);
      assert Split(a, sep) == [""];
    } else {
      var t := a[1..] + [sep] + b;
      assert a + [sep] + b == [a[0]] + t;
      assert a == [a[0]] + a[1..];
      SplitAround(a[1..], b, sep);
      var left, right := Split(a[1..], sep), Split(b, sep);
      SplitCons(a[0], t, sep);
      SplitCons(a[0], a[1..], sep);
      HeadTailOfAppend(left, right);
      if a[0] == sep {
        AppendAssoc([""], left, right);
      } else {
        AppendAssoc([[a[0]] + left[0]], left[1..], right);
      }
    }
  }

  /** One character in front: a separator starts a new piece, any other
      character joins the first piece. */
  lemma SplitCons(c: char, t: string, sep: char)
    ensures Split([c] + t, sep) ==
              if c == sep then [""] + Split(t, sep)
              else [[c] + Split(t, sep)[0]] + Split(t, sep)[1..]
  {
    assert ([c] + t)[1..] == t;
  }

  lemma HeadTailOfAppend<T>(xs: seq<T>, ys: seq<T>)
    requires |xs| > 0
    ensures (xs + ys)[0] == xs[0] && (xs + ys)[1..] == xs[1..] + ys
  {
  }

  lemma AppendAssoc<T>(xs: seq<T>, ys: seq<T>, zs: seq<T>)
    ensures xs + (ys + zs) == (xs + ys) + zs
  {
  }

  /** Text without the separator is a single piece. */
  lemma {:induction false} SplitWithoutSeparator(s: string, sep: char)
    requires sep !in s
    ensures Split(s, sep) == [s]
  {
    if |s| > 0 {
      assert sep !in s[1..] by {
        forall i | 0 <= i < |s[1..]| ensures s[1..][i] != sep { assert s[1..][i] == s[i + 1]; }
      }
      SplitWithoutSeparator(s[1..], sep);
      assert [s[0]] + s[1..] == s;
    }
  }

  /** Each element after the first, prefixed by `pad`. */
  function Padded(xs: seq<string>, pad: string): (r: seq<string>)
    ensures |r| == |xs|
    ensures forall i :: 0 <= i < |xs| ==> r[i] == pad + xs[i]
  {
    if |xs| == 0 then [] else [pad + xs[0]] + Padded(xs[1..], pad)
  }

  /** Splitting `p + xs.join(sep + pad)` on `sep`, when no element, no `p` and no
      `pad` holds `sep`: the first piece is `p + xs[0]`, the others carry `pad`. */
  lemma {:induction false} SplitJoinPadded(p: string, xs: seq<string>, sep: char, pad: string)
    requires |xs| > 0
    requires sep !in p && sep !in pad
    requires forall i :: 0 <= i < |xs| ==> sep !in xs[i]
    ensures Split(p + Join(xs, [sep] + pad), sep) == [p + xs[0]] + Padded(xs[1..], pad)
    decreases |xs|
  {
    if |xs| == 1 {
      SplitWithoutSeparator(p + xs[0], sep);
    } else {
      var tail := Join(xs[1..], [sep] + pad);
      assert p + Join(xs, [sep] + pad) == (p + xs[0]) + [sep] + (pad + tail);
      SplitAround(p + xs[0], pad + tail, sep);
      SplitWithoutSeparator(p + xs[0], sep);
      SplitJoinPadded(pad, xs[1..], sep, pad);
      assert xs[1..][1..] == xs[2..];
      assert Padded(xs[1..], pad) == [pad + xs[1]] + Padded(xs[2..], pad);
    }
  }

  /** `SplitJoinPadded` with nothing in front of the first element. */
  lemma SplitJoinNoPrefix(xs: seq<string>, sep: char, pad: string)
    requires |xs| > 0 && sep !in pad
    requires forall i :: 0 <= i < |xs| ==> sep !in xs[i]
    ensures Split(Join(xs, [sep] + pad), sep) == [xs[0]] + Padded(xs[1..], pad)
  {
    var empty: string := [];
    SplitJoinPadded(empty, xs, sep, pad);
    assert empty + Join(xs, [sep] + pad) == Join(xs, [sep] + pad);
    assert empty + xs[0] == xs[0];
  }

  /** Padding with nothing changes no element. */
  lemma PaddedEmpty(xs: seq<string>)
    ensures Padded(xs, []) == xs
  {
    var r := Padded(xs, []);
    forall i | 0 <= i < |xs| ensures r[i] == xs[i] {
      assert [] + xs[i] == xs[i];
    }
  }

  /** Joining on a character that no element holds, then splitting on it, is the identity. */
  lemma SplitJoin(xs: seq<string>, sep: char)
    requires |xs| > 0
    requires forall i :: 0 <= i < |xs| ==> sep !in xs[i]
    ensures Split(Join(xs, [sep]), sep) == xs
  {
    var empty: string := [];
    SplitJoinNoPrefix(xs, sep, empty);
    assert [sep] + empty == [sep];
    PaddedEmpty(xs[1..]);
    assert [xs[0]] + xs[1..] == xs;
  }

  predicate StartsWith(s: string, prefix: string) {
    |prefix| <= |s| && s[..|prefix|] == prefix
  }

  /** `s.includes(sub)`, and equally an unanchored regular-expression test for a literal. */
  predicate Contains(s: string, sub: string) {
    StartsWith(s, sub) || (|s| > 0 && Contains(s[1..], sub))
  }

  /** `sub` occurs in `s` starting at index `i`. */
  predicate OccursAt(s: string, sub: string, i: int) {
    0 <= i <= |s| - |sub| && s[i..i + |sub|] == sub
  }

  /** `Contains` agrees with the positional definition of a substring. */
  lemma {:induction false} ContainsAt(s: string, sub: string)
    ensures Contains(s, sub) <==> exists i :: OccursAt(s, sub, i)
  {
    if StartsWith(s, sub) {
      assert OccursAt(s, sub, 0);
    } else if |s| > 0 {
      ContainsAt(s[1..], sub);
      if Contains(s[1..], sub) {
        var i :| OccursAt(s[1..], sub, i);
        assert s[1..][i..i + |sub|] == s[i + 1..i + 1 + |sub|];
        assert OccursAt(s, sub, i + 1);
      }
      if exists i :: OccursAt(s, sub, i) {
        var i :| OccursAt(s, sub, i);
        assert i > 0;
        assert OccursAt(s[1..], sub, i - 1);
      }
    } else {
      assert !exists i :: OccursAt(s, sub, i);
    }
  }

  /** Every string contains the empty string. */
  lemma ContainsEmpty(s: string)
    ensures Contains(s, "")
  {
    assert s[..0] == "";
  }

  /** ASCII upper-case letters become lower-case; other characters are kept. */
  function LowerChar(c: char): char {
    if 'A' <= c <= 'Z' then (c as int + 32) as char else c
  }

  /** `s.toLowerCase()` for the ASCII letters. */
  function ToLower(s: string): (r: string)
    ensures |r| == |s|
    ensures forall i :: 0 <= i < |r| ==> !('A' <= r[i] <= 'Z')
    ensures forall i :: 0 <= i < |s| && !('A' <= s[i] <= 'Z') ==> r[i] == s[i]
  {
    seq(|s|, i requires 0 <= i < |s| => LowerChar(s[i]))
  }

  lemma ToLowerIdempotent(s: string)
    ensures ToLower(ToLower(s)) == ToLower(s)
  {
  }

  function DigitChar(d: nat): (c: char)
    requires d < 10
    ensures '0' <= c <= '9'
  {
    ('0' as int + d) as char
  }

  predicate IsDigits(s: string) {
    forall i :: 0 <= i < |s| ==> '0' <= s[i] <= '9'
  }

  /** The decimal rendering of a natural number, as a template literal prints it. */
  function Decimal(n: nat): (r: string)
    ensures |r| >= 1
    ensures IsDigits(r)
  {
    if n < 10 then [DigitChar(n)] else Decimal(n / 10) + [DigitChar(n % 10)]
  }

  /** The value of a string of decimal digits. */
  function DecimalValue(s: string): nat
    requires IsDigits(s)
  {
    if |s| == 0 then 0
    else DecimalValue(s[..|s| - 1]) * 10 + (s[|s| - 1] as int - '0' as int)
  }

  /** Reading back a rendered number gives the number. */
  lemma {:induction false} DecimalRoundTrip(n: nat)
    ensures DecimalValue(Decimal(n)) == n
  {
    if n >= 10 {
      DecimalRoundTrip(n / 10);
      var r := Decimal(n);
      assert r[..|r| - 1] == Decimal(n / 10);
    }
  }

  /** Distinct numbers render as distinct strings. */
  lemma DecimalInjective(a: nat, b: nat)
    requires Decimal(a) == Decimal(b)
    ensures a == b
  {
    DecimalRoundTrip(a);
    DecimalRoundTrip(b);
  }
}

=== FILE: message_controller.dfy ===
/**
 * The contact-message endpoints (server/controllers/messageController.js).
 * The e-mail dispatch is fire-and-forget: the model produces the
 * notification it would send and takes the delivery outcome as an input
 * that the reply does not depend on.
 */
module MessageController {
  import opened Wrappers
  import opened Http
  import opened Repository

  datatype Message = Message(name: string, email: string, subject: string, message: string)

  /** The four body fields; a field the visitor left out is `None`. */
  datatype MessageForm = MessageForm(
    name: Option<string>,
    email: Option<string>,
    subject: Option<string>,
    message: Option<string>)

  /** The notification mailed to the site owner. */
  datatype Notification = Notification(subject: string, senderName: string, senderEmail: string, body: string)

  type MessageStore = Store<Message>

  const SUBJECT_PREFIX := "New Portfolio Message: "

  /** A truthy text field: present and not empty. */
  predicate Provided(f: Option<string>) {
    f.Some? && f.value != ""
  }

  predicate AllProvided(f: MessageForm) {
    Provided(f.name) && Provided(f.email) && Provided(f.subject) && Provided(f.message)
  }

  /** Every stored message has its four fields filled in. */
  predicate Consistent(s: MessageStore) {
    && Valid(s)
    && forall id :: id in s.docs ==>
         var m := s.docs[id].fields;
         m.name != "" && m.email != "" && m.subject != "" && m.message != ""
  }

  function NotificationFor(m: Message): (n: Notification)
    ensures |n.subject| == |SUBJECT_PREFIX| + |m.subject|
    ensures n.subject[..|SUBJECT_PREFIX|] == SUBJECT_PREFIX
    ensures n.subject[|SUBJECT_PREFIX|..] == m.subject
    ensures n.senderName == m.name && n.senderEmail == m.email && n.body == m.message
  {
    Notification(SUBJECT_PREFIX + m.subject, m.name, m.email, m.message)
  }

  /** POST /api/messages. A missing or empty field is a 400 that stores and
      sends nothing; otherwise the message is stored, a 201 returns it, and a
      notification is dispatched whose delivery (`delivered`) is ignored. */
  function SendMessage(s: MessageStore, form: MessageForm, delivered: bool)
    : (res: (Reply<Record<Message>>, MessageStore, Option<Notification>))
    requires Consistent(s)
    ensures Consistent(res.1)
    ensures !AllProvided(form) ==>
              res.0 == Failure(BAD_REQUEST, "Please provide all fields") && res.1 == s && res.2.None?
    ensures AllProvided(form) ==>
              && res.0.Success? && res.0.code == CREATED
              && res.0.data.fields == Message(form.name.value, form.email.value,
                                              form.subject.value, form.message.value)
              && res.0.data.id !in s.docs
              && res.1.docs == s.docs[res.0.data.id := res.0.data]
              && res.2 == Some(NotificationFor(res.0.data.fields))
  {
    if !AllProvided(form) then (Failure(BAD_REQUEST, "Please provide all fields"), s, None)
    else
      var m := Message(form.name.value, form.email.value, form.subject.value, form.message.value);
      var (s', rec) := Insert(s, m);
      (Success(CREATED, rec), s', Some(NotificationFor(m)))
  }

  /** The answer and the stored state are the same whether or not the mail went out. */
  lemma ReplyIgnoresDelivery(s: MessageStore, form: MessageForm)
    requires Consistent(s)
    ensures SendMessage(s, form, true) == SendMessage(s, form, false)
  {
  }

  /** GET /api/messages: every message, newest first, with its count. */
  method GetMessages(s: MessageStore) returns (r: ListReply<Record<Message>>)
    requires Valid(s)
    ensures IsListing(r.data, s)
    ensures r.count == |r.data| == |s.docs|
  {
    var data := List(s);
    r := MakeListReply(data);
  }

  /** DELETE /api/messages/:id. */
  function DeleteMessage(s: MessageStore, id: Id): (res: (Reply<Empty>, MessageStore))
    requires Consistent(s)
    ensures Consistent(res.1)
    ensures id !in s.docs ==> res.0 == Failure(NOT_FOUND, "Message not found") && res.1 == s
    ensures id in s.docs ==>
              && res.0 == Success(OK, Empty)
              && res.1.docs.Keys == s.docs.Keys - {id}
              && (forall k :: k in res.1.docs ==> res.1.docs[k] == s.docs[k])
  {
    if id !in s.docs then (Failure(NOT_FOUND, "Message not found"), s)
    else (Success(OK, Empty), Remove(s, id))
  }

  /** A message that was sent is listed until it is deleted, and never after. */
  lemma DeletedMessageLeavesListing(s: MessageStore, id: Id, r: seq<Record<Message>>)
    requires Consistent(s) && id in s.docs
    requires IsListing(r, DeleteMessage(s, id).1)
    ensures forall i :: 0 <= i < |r| ==> r[i].id != id
  {
  }
}

=== FILE: project_controller.dfy ===
/**
 * The project endpoints (server/controllers/projectController.js): the
 * payload normalisation shared by create and update, and the four
 * operations over the project collection.
 */
module ProjectController {
  import opened Wrappers
  import opened JsStrings
  import opened Seqs
  import opened Values
  import opened Http
  import opened Repository
  import opened ProjectModel

  type ProjectStore = Store<Project>

  /** The collection invariant: a valid store of well-formed projects. */
  predicate Consistent(s: ProjectStore) {
    Valid(s) && forall id :: id in s.docs ==> WellFormed(s.docs[id].fields)
  }

  /** `xs.map(s => s.trim())`. */
  function TrimAll(xs: seq<string>): (r: seq<string>)
    ensures |r| == |xs|
    ensures forall i :: 0 <= i < |xs| ==> r[i] == Trim(xs[i])
  {
    if |xs| == 0 then [] else [Trim(xs[0])] + TrimAll(xs[1..])
  }

  predicate NonEmpty(s: string) {
    s != ""
  }

  /** A non-empty text `tech` becomes its comma-separated pieces, trimmed;
      blank pieces are kept. Anything else is left for the schema to cast. */
  function NormaliseTech(v: Value): (r: Value)
    ensures Truthy(v) && v.Str? ==>
              && r.Strs?
              && |r.items| == multiset(v.text)[','] + 1
              && (forall i :: 0 <= i < |r.items| ==> IsTrimmed(r.items[i]) && ',' !in r.items[i])
              && (forall i :: 0 <= i < |r.items| ==> r.items[i] == Trim(Split(v.text, ',')[i]))
    ensures !(Truthy(v) && v.Str?) ==> r == v
  {
    if Truthy(v) && v.Str? then
      var pieces := Split(v.text, ',');
      var items := TrimAll(pieces);
      assert forall i :: 0 <= i < |items| ==> ',' !in items[i] by {
        forall i | 0 <= i < |items| ensures ',' !in items[i] { TrimKeepsOut(pieces[i], ','); }
      }
      Strs(items)
    else v
  }

  /** A non-empty text `achievements` becomes its lines, trimmed, with blank
      lines dropped. Anything else is left for the schema to cast. */
  function NormaliseAchievements(v: Value): (r: Value)
    ensures Truthy(v) && v.Str? ==>
              && r.Strs?
              && |r.items| <= multiset(v.text)['\n'] + 1
              && (forall i :: 0 <= i < |r.items| ==>
                    r.items[i] != "" && IsTrimmed(r.items[i]) && '\n' !in r.items[i])
              && (forall i :: 0 <= i < |Split(v.text, '\n')| && !AllWhitespace(Split(v.text, '\n')[i])
                    ==> Trim(Split(v.text, '\n')[i]) in r.items)
    ensures Truthy(v) && v.Str? ==> r == Strs(Filter(TrimAll(Split(v.text, '\n')), NonEmpty))
    ensures !(Truthy(v) && v.Str?) ==> r == v
  {
    if Truthy(v) && v.Str? then
      var lines := Split(v.text, '\n');
      var trimmed := TrimAll(lines);
      var items := Filter(trimmed, NonEmpty);
      assert forall i :: 0 <= i < |items| ==> '\n' !in items[i] by {
        forall i | 0 <= i < |trimmed| ensures '\n' !in trimmed[i] { TrimKeepsOut(lines[i], '\n'); }
      }
      assert forall i :: 0 <= i < |lines| && !AllWhitespace(lines[i]) ==> trimmed[i] in items by {
        forall i | 0 <= i < |lines| && !AllWhitespace(lines[i]) ensures trimmed[i] in items {
          TrimBlank(lines[i]);
        }
      }
      Strs(items)
    else v
  }

  /** Trimming every element of a concatenation trims each part. */
  lemma {:induction false} TrimAllAppend(a: seq<string>, b: seq<string>)
    ensures TrimAll(a + b) == TrimAll(a) + TrimAll(b)
  {
    if |a| > 0 {
      var ab := a + b;
      assert ab[0] == a[0] && ab[1..] == a[1..] + b;
      TrimAllAppend(a[1..], b);
      calc {
        TrimAll(ab);
        [Trim(a[0])] + TrimAll(a[1..] + b);
        [Trim(a[0])] + (TrimAll(a[1..]) + TrimAll(b));
        ([Trim(a[0])] + TrimAll(a[1..])) + TrimAll(b);
      }
    } else {
      assert a + b == b;
    }
  }

  /** A single line of text gives one achievement, its trimmed form, unless
      it is blank. */
  lemma AchievementsOfLine(line: string)
    requires line != "" && '\n' !in line
    ensures NormaliseAchievements(Str(line)) == Strs(if AllWhitespace(line) then [] else [Trim(line)])
  {
    SplitWithoutSeparator(line, '\n');
    TrimBlank(line);
  }

  /** The first line's trimmed entry, then the entries of the rest. */
  lemma SplitFirstLine(line: string, rest: string)
    requires '\n' !in line
    ensures Filter(TrimAll(Split(line + "\n" + rest, '\n')), NonEmpty)
            == Filter([Trim(line)], NonEmpty) + Filter(TrimAll(Split(rest, '\n')), NonEmpty)
  {
    SplitAround(line, rest, '\n');
    SplitWithoutSeparator(line, '\n');
    TrimAllAppend([line], Split(rest, '\n'));
    FilterAppend([Trim(line)], TrimAll(Split(rest, '\n')), NonEmpty);
  }

  lemma KeptLine(line: string)
    ensures Filter([Trim(line)], NonEmpty) == if AllWhitespace(line) then [] else [Trim(line)]
  {
    TrimBlank(line);
  }

  /** Lines are taken in order and independently: the first line's
      achievement, if any, comes before every achievement of the rest of
      the text, which keeps its own order and repetitions. */
  lemma AchievementsLineByLine(line: string, rest: string)
    requires '\n' !in line
    ensures NormaliseAchievements(Str(line + "\n" + rest)).items ==
              (if AllWhitespace(line) then [] else [Trim(line)])
              + (if rest == "" then [] else NormaliseAchievements(Str(rest)).items)
  {
    var whole := line + "\n" + rest;
    assert |whole| > 0;
    AchievementsItems(whole);
    SplitFirstLine(line, rest);
    KeptLine(line);
    if rest == "" {
      NoAchievementsInEmpty();
    } else {
      AchievementsItems(rest);
    }
  }

  lemma AchievementsItems(text: string)
    requires text != ""
    ensures NormaliseAchievements(Str(text)).items == Filter(TrimAll(Split(text, '\n')), NonEmpty)
  {
  }

  lemma NoAchievementsInEmpty()
    ensures Filter(TrimAll(Split("", '\n')), NonEmpty) == []
  {
  }

  /** A text `isFeatured` becomes true exactly when it is `"true"`. */
  function NormaliseFeatured(v: Value): (r: Value)
    ensures v.Str? ==> r == Bool(v.text == "true")
    ensures !v.Str? ==> r == v
  {
    if v.Str? then Bool(v.text == "true") else v
  }

  /** The payload a create or update hands to the schema: an uploaded file's
      path replaces the body's `image`, and the three coercions are applied.
      Every other field is passed through as sent. */
  function Normalise(body: ProjectPayload, file: Option<string>): (p: ProjectPayload)
    ensures file.Some? ==> p.image == Str(file.value)
    ensures file.None? ==> p.image == body.image
    ensures p.title == body.title && p.description == body.description
    ensures p.category == body.category
    ensures p.githubLink == body.githubLink && p.liveLink == body.liveLink
    ensures p.tech == NormaliseTech(body.tech)
    ensures p.achievements == NormaliseAchievements(body.achievements)
    ensures p.isFeatured == NormaliseFeatured(body.isFeatured) && !p.isFeatured.Str?
  {
    body.(
      image := if file.Some? then Str(file.value) else body.image,
      tech := NormaliseTech(body.tech),
      achievements := NormaliseAchievements(body.achievements),
      isFeatured := NormaliseFeatured(body.isFeatured))
  }

  /** GET /api/projects: every project, newest first, with its count. */
  method GetProjects(s: ProjectStore) returns (r: ListReply<Record<Project>>)
    requires Valid(s)
    ensures IsListing(r.data, s)
    ensures r.count == |r.data| == |s.docs|
  {
    var data := List(s);
    r := MakeListReply(data);
  }

  /** POST /api/projects: normalise, build and store; a failed build is a 400
      and writes nothing. */
  function CreateProject(s: ProjectStore, body: ProjectPayload, file: Option<string>)
    : (res: (Reply<Record<Project>>, ProjectStore))
    requires Consistent(s)
    ensures Consistent(res.1)
    ensures res.0.Success? <==> Build(Normalise(body, file)).Ok?
    ensures res.0.Failure? ==> res.0.code == BAD_REQUEST && res.1 == s
    ensures res.0.Success? ==>
              && res.0.code == CREATED
              && res.0.data.id !in s.docs
              && res.1.docs == s.docs[res.0.data.id := res.0.data]
              && res.0.data.fields == Build(Normalise(body, file)).value
              && (forall id :: id in s.docs ==> s.docs[id].createdAt < res.0.data.createdAt)
    ensures res.0.Success? && file.Some? ==> res.0.data.fields.image == file.value
  {
    match Build(Normalise(body, file))
    case Err(e) => (Failure(BAD_REQUEST, e), s)
    case Ok(project) =>
      InsertConsistent(s, project);
      var (s', rec) := Insert(s, project);
      (Success(CREATED, rec), s')
  }

  lemma InsertConsistent(s: ProjectStore, x: Project)
    requires Consistent(s) && WellFormed(x)
    ensures Consistent(Insert(s, x).0)
  {
  }

  /** PUT /api/projects/:id: an unknown id is a 404; otherwise the normalised
      fields overwrite the stored ones, and a failed validation is a 400 that
      writes nothing. */
  function UpdateProject(s: ProjectStore, id: Id, body: ProjectPayload, file: Option<string>)
    : (res: (Reply<Record<Project>>, ProjectStore))
    requires Consistent(s)
    ensures Consistent(res.1)
    ensures id !in s.docs ==> res.0 == Failure(NOT_FOUND, "Project not found") && res.1 == s
    ensures id in s.docs ==> (res.0.Success? <==> ApplyUpdate(s.docs[id].fields, Normalise(body, file)).Ok?)
    ensures res.0.Failure? ==> res.1 == s
    ensures res.0.Failure? && id in s.docs ==> res.0.code == BAD_REQUEST
    ensures res.0.Success? ==>
              && id in s.docs
              && res.0.code == OK
              && res.0.data.id == id
              && res.0.data.createdAt == s.docs[id].createdAt
              && res.0.data.fields == ApplyUpdate(s.docs[id].fields, Normalise(body, file)).value
              && KeepsMissing(s.docs[id].fields, Normalise(body, file), res.0.data.fields)
              && res.1 == Replace(s, id, res.0.data.fields)
    ensures res.0.Success? && file.Some? ==> res.0.data.fields.image == file.value
  {
    if id !in s.docs then (Failure(NOT_FOUND, "Project not found"), s)
    else
      match ApplyUpdate(s.docs[id].fields, Normalise(body, file))
      case Err(e) => (Failure(BAD_REQUEST, e), s)
      case Ok(project) =>
        var s' := Replace(s, id, project);
        (Success(OK, s'.docs[id]), s')
  }

  /** DELETE /api/projects/:id: an unknown id is a 404; otherwise exactly that
      record is removed and the answer carries `data: {}`. */
  function DeleteProject(s: ProjectStore, id: Id): (res: (Reply<Empty>, ProjectStore))
    requires Consistent(s)
    ensures Consistent(res.1)
    ensures id !in s.docs ==> res.0 == Failure(NOT_FOUND, "Project not found") && res.1 == s
    ensures id in s.docs ==>
              && res.0 == Success(OK, Empty)
              && res.1.docs.Keys == s.docs.Keys - {id}
              && (forall k :: k in res.1.docs ==> res.1.docs[k] == s.docs[k])
  {
    if id !in s.docs then (Failure(NOT_FOUND, "Project not found"), s)
    else (Success(OK, Empty), Remove(s, id))
  }

  /** Create and update hand the schema the same normalised payload: with a
      complete body, a successful update stores exactly what a create would. */
  lemma CreateAndUpdateAgree(s: ProjectStore, id: Id, body: ProjectPayload, file: Option<string>)
    requires Consistent(s) && id in s.docs
    requires Complete(Normalise(body, file))
    ensures UpdateProject(s, id, body, file).0.Success? <==> CreateProject(s, body, file).0.Success?
    ensures UpdateProject(s, id, body, file).0.Success? ==>
              UpdateProject(s, id, body, file).0.data.fields == CreateProject(s, body, file).0.data.fields
  {
    CompleteUpdateIsBuild(s.docs[id].fields, Normalise(body, file));
  }

  /** A text `isFeatured` never fails the boolean cast, and a project built
      from it is featured exactly when the text is `"true"`: spellings the
      schema alone would read as true, such as `"yes"` or `"1"`, give false. */
  lemma FeaturedFromText(body: ProjectPayload, file: Option<string>, t: string)
    requires body.isFeatured == Str(t)
    ensures CastBoolean(Normalise(body, file).isFeatured).Ok?
    ensures Build(Normalise(body, file)).Ok? ==>
              Build(Normalise(body, file)).value.isFeatured == (t == "true")
  {
  }
}

=== FILE: project_model.dfy ===
/**
 * The Project document schema (server/models/Project.js): required text
 * paths, trimmed paths, array paths defaulting to empty, and a boolean
 * defaulting to false. Creation and update both cast the supplied fields
 * onto a base record and then run the required validators.
 */
module ProjectModel {
  import opened Wrappers
  import opened JsStrings
  import opened Values

  datatype Project = Project(
    title: string,
    description: string,
    tech: seq<string>,
    image: string,
    achievements: seq<string>,
    isFeatured: bool,
    category: string,
    githubLink: Option<string>,
    liveLink: Option<string>)

  /** The schema fields as they arrive in a request body. */
  datatype ProjectPayload = ProjectPayload(
    title: Value,
    description: Value,
    tech: Value,
    image: Value,
    achievements: Value,
    isFeatured: Value,
    category: Value,
    githubLink: Value,
    liveLink: Value)

  /** A new document before any field is supplied: array paths hold their
      empty defaults, `isFeatured` is false, required paths are unset. */
  const Blank := Project("", "", [], "", [], false, "", None, None)

  /** The invariant of every stored project: required paths non-empty and
      the `trim` paths trimmed. The image path is not trimmed. */
  predicate WellFormed(x: Project) {
    && x.title != "" && x.description != "" && x.image != "" && x.category != ""
    && IsTrimmed(x.title) && IsTrimmed(x.description) && IsTrimmed(x.category)
    && (x.githubLink.Some? ==> IsTrimmed(x.githubLink.value))
    && (x.liveLink.Some? ==> IsTrimmed(x.liveLink.value))
  }

  function ArrayOr(prior: seq<string>, v: Value): seq<string> {
    match CastStringArray(v)
    case Some(xs) => xs
    case None => prior
  }

  function BooleanOr(prior: bool, v: Value): bool {
    match CastBoolean(v)
    case Ok(Some(b)) => b
    case _ => prior
  }

  /** Every field the body leaves out keeps its value from `base`. */
  predicate KeepsMissing(base: Project, p: ProjectPayload, x: Project) {
    && (p.title.Missing? ==> x.title == base.title)
    && (p.description.Missing? ==> x.description == base.description)
    && (p.tech.Missing? ==> x.tech == base.tech)
    && (p.image.Missing? ==> x.image == base.image)
    && (p.achievements.Missing? ==> x.achievements == base.achievements)
    && (p.isFeatured.Missing? ==> x.isFeatured == base.isFeatured)
    && (p.category.Missing? ==> x.category == base.category)
    && (p.githubLink.Missing? ==> x.githubLink == base.githubLink)
    && (p.liveLink.Missing? ==> x.liveLink == base.liveLink)
  }

  /** Supplied fields are stored: text and arrays as given, text trimmed on
      the `trim` paths, and values of another shape converted. */
  predicate StoresSupplied(p: ProjectPayload, x: Project) {
    && (p.title.Str? ==> x.title == Trim(p.title.text))
    && (p.description.Str? ==> x.description == Trim(p.description.text))
    && (p.image.Str? ==> x.image == p.image.text)
    && (p.category.Str? ==> x.category == Trim(p.category.text))
    && (p.tech.Strs? ==> x.tech == p.tech.items)
    && (p.achievements.Strs? ==> x.achievements == p.achievements.items)
    && (p.isFeatured.Bool? ==> x.isFeatured == p.isFeatured.flag)
    && (p.githubLink.Str? ==> x.githubLink == Some(Trim(p.githubLink.text)))
    && (p.liveLink.Str? ==> x.liveLink == Some(Trim(p.liveLink.text)))
    && StoresConverted(p, x)
  }

  /** A value of another shape is converted first: a boolean on a text path
      is stored as its name, text or a boolean on an array path as a
      one-element array, and a boolean spelling on the boolean path as the
      flag it spells. */
  predicate StoresConverted(p: ProjectPayload, x: Project) {
    && (p.title.Bool? ==> x.title == BoolText(p.title.flag))
    && (p.description.Bool? ==> x.description == BoolText(p.description.flag))
    && (p.image.Bool? ==> x.image == BoolText(p.image.flag))
    && (p.category.Bool? ==> x.category == BoolText(p.category.flag))
    && (p.githubLink.Bool? ==> x.githubLink == Some(BoolText(p.githubLink.flag)))
    && (p.liveLink.Bool? ==> x.liveLink == Some(BoolText(p.liveLink.flag)))
    && (p.tech.Str? ==> x.tech == [p.tech.text])
    && (p.tech.Bool? ==> x.tech == [BoolText(p.tech.flag)])
    && (p.achievements.Str? ==> x.achievements == [p.achievements.text])
    && (p.achievements.Bool? ==> x.achievements == [BoolText(p.achievements.flag)])
    && (p.isFeatured.Str? ==>
          x.isFeatured == (p.isFeatured.text == "true" || p.isFeatured.text == "1" || p.isFeatured.text == "yes"))
  }

  /** An array where the schema expects text, or a value that is not a boolean
      spelling where it expects a boolean, fails the cast. */
  predicate HasCastError(p: ProjectPayload) {
    || p.title.Strs? || p.description.Strs? || p.image.Strs? || p.category.Strs?
    || p.githubLink.Strs? || p.liveLink.Strs? || CastBoolean(p.isFeatured).Err?
  }

  /** The record with every supplied field cast onto `base`. */
  function Overlay(base: Project, p: ProjectPayload): Project {
    Project(
      TextOr(base.title, p.title, true),
      TextOr(base.description, p.description, true),
      ArrayOr(base.tech, p.tech),
      TextOr(base.image, p.image, false),
      ArrayOr(base.achievements, p.achievements),
      BooleanOr(base.isFeatured, p.isFeatured),
      TextOr(base.category, p.category, true),
      OptTextOr(base.githubLink, p.githubLink, true),
      OptTextOr(base.liveLink, p.liveLink, true))
  }

  /** Casts every supplied field onto `base`; a missing field keeps the base value. */
  function Merge(base: Project, p: ProjectPayload): (r: Result<Project>)
    ensures r.Ok? <==> !HasCastError(p)
    ensures r.Ok? ==> KeepsMissing(base, p, r.value) && StoresSupplied(p, r.value)
  {
    if HasCastError(p) then Err("Cast failed")
    else
      OverlayStores(base, p);
      Ok(Overlay(base, p))
  }

  lemma OverlayStores(base: Project, p: ProjectPayload)
    requires !HasCastError(p)
    ensures KeepsMissing(base, p, Overlay(base, p))
    ensures StoresSupplied(p, Overlay(base, p))
  {
    OverlayKeeps(base, p);
    OverlayStoresText(base, p);
    OverlayConverts(base, p);
  }

  lemma OverlayKeeps(base: Project, p: ProjectPayload)
    ensures KeepsMissing(base, p, Overlay(base, p))
  {
  }

  lemma OverlayStoresText(base: Project, p: ProjectPayload)
    ensures var x := Overlay(base, p);
            && (p.title.Str? ==> x.title == Trim(p.title.text))
            && (p.description.Str? ==> x.description == Trim(p.description.text))
            && (p.image.Str? ==> x.image == p.image.text)
            && (p.category.Str? ==> x.category == Trim(p.category.text))
            && (p.tech.Strs? ==> x.tech == p.tech.items)
            && (p.achievements.Strs? ==> x.achievements == p.achievements.items)
            && (p.isFeatured.Bool? ==> x.isFeatured == p.isFeatured.flag)
            && (p.githubLink.Str? ==> x.githubLink == Some(Trim(p.githubLink.text)))
            && (p.liveLink.Str? ==> x.liveLink == Some(Trim(p.liveLink.text)))
  {
  }

  lemma OverlayConverts(base: Project, p: ProjectPayload)
    requires !HasCastError(p)
    ensures StoresConverted(p, Overlay(base, p))
  {
  }

  predicate MeetsRequired(x: Project) {
    x.title != "" && x.description != "" && x.image != "" && x.category != ""
  }

  /** `Project.create(data)`: casts, applies defaults and validates. */
  function Build(p: ProjectPayload): (r: Result<Project>)
    ensures p.title.Missing? || p.description.Missing? || p.image.Missing? || p.category.Missing?
            ==> r.Err?
    ensures p.title.Str? && AllWhitespace(p.title.text) ==> r.Err?
    ensures r.Ok? ==> WellFormed(r.value)
    ensures r.Ok? && p.tech.Missing? ==> r.value.tech == []
    ensures r.Ok? && p.achievements.Missing? ==> r.value.achievements == []
    ensures r.Ok? && p.isFeatured.Missing? ==> !r.value.isFeatured
    ensures r.Ok? && p.githubLink.Missing? ==> r.value.githubLink.None?
    ensures r.Ok? && p.liveLink.Missing? ==> r.value.liveLink.None?
    ensures r.Ok? && p.image.Str? ==> r.value.image == p.image.text
    ensures r.Ok? ==> StoresSupplied(p, r.value)
    ensures r.Ok? <==>
              && !HasCastError(p)
              && FillsRequired(p.title, true) && FillsRequired(p.description, true)
              && FillsRequired(p.image, false) && FillsRequired(p.category, true)
  {
    var x :- Merge(Blank, p);
    TextOrNonEmpty(Blank.title, p.title, true);
    TextOrNonEmpty(Blank.description, p.description, true);
    TextOrNonEmpty(Blank.image, p.image, false);
    TextOrNonEmpty(Blank.category, p.category, true);
    if MeetsRequired(x) then Ok(x) else Err("Project validation failed")
  }

  /** `findByIdAndUpdate(id, data, {runValidators: true})`: the supplied
      fields overwrite the stored ones, then the required validators run. */
  function ApplyUpdate(stored: Project, p: ProjectPayload): (r: Result<Project>)
    ensures WellFormed(stored) && r.Ok? ==> WellFormed(r.value)
    ensures WellFormed(stored) && p.title.Str? && Trim(p.title.text) == "" ==> r.Err?
    ensures r.Ok? ==> KeepsMissing(stored, p, r.value) && StoresSupplied(p, r.value)
    ensures WellFormed(stored) ==>
              (r.Ok? <==>
                 && !HasCastError(p)
                 && !BlankText(p.title, true) && !BlankText(p.description, true)
                 && !BlankText(p.image, false) && !BlankText(p.category, true))
  {
    var x :- Merge(stored, p);
    TextOrNonEmpty(stored.title, p.title, true);
    TextOrNonEmpty(stored.description, p.description, true);
    TextOrNonEmpty(stored.image, p.image, false);
    TextOrNonEmpty(stored.category, p.category, true);
    if MeetsRequired(x) then Ok(x) else Err("Validation failed")
  }

  /** Every field present in the body: the base record no longer matters,
      so an update writes exactly what a creation would. */
  predicate Complete(p: ProjectPayload) {
    && !p.title.Missing? && !p.description.Missing? && !p.tech.Missing? && !p.image.Missing?
    && !p.achievements.Missing? && !p.isFeatured.Missing? && !p.category.Missing?
    && !p.githubLink.Missing? && !p.liveLink.Missing?
  }

  lemma CompleteUpdateIsBuild(stored: Project, p: ProjectPayload)
    requires Complete(p)
    ensures ApplyUpdate(stored, p).Ok? <==> Build(p).Ok?
    ensures Build(p).Ok? ==> ApplyUpdate(stored, p).value == Build(p).value
  {
    if !HasCastError(p) {
      assert Overlay(stored, p) == Overlay(Blank, p);
    }
  }

  /** A body with every required field given as non-blank text and the other
      fields of the right shape is accepted, and its text is stored trimmed. */
  lemma BuildAccepts(p: ProjectPayload)
    requires p.title.Str? && !AllWhitespace(p.title.text)
    requires p.description.Str? && !AllWhitespace(p.description.text)
    requires p.image.Str? && p.image.text != ""
    requires p.category.Str? && !AllWhitespace(p.category.text)
    requires !p.isFeatured.Str? && !p.isFeatured.Strs?
    requires !p.githubLink.Strs? && !p.liveLink.Strs?
    ensures Build(p).Ok?
    ensures Build(p).value.title == Trim(p.title.text)
    ensures Build(p).value.category == Trim(p.category.text)
  {
    TrimBlank(p.title.text);
    TrimBlank(p.description.text);
    TrimBlank(p.category.text);
  }
}

=== FILE: projects_page.dfy ===
/**
 * The pure parts of the public projects section
 * (client/src/components/Projects.jsx): the category filter, the tech tags
 * and the achievement list shown on each card.
 */
module ProjectsPage {
  import opened Wrappers
  import opened JsStrings
  import opened Seqs
  import opened Repository
  import opened ProjectModel
  import opened ProjectController
  import Categories

  /** The filter the section opens on. */
  const INITIAL_FILTER := Categories.DEFAULT

  lemma InitialFilterOffered()
    ensures INITIAL_FILTER in Categories.ALL
  {
  }

  /** `projects.filter(p => p.category === filter)`. */
  function FilteredProjects(ps: seq<Record<Project>>, filter: string): (r: seq<Record<Project>>)
    ensures forall i :: 0 <= i < |r| ==> r[i] in ps && r[i].fields.category == filter
    ensures forall i :: 0 <= i < |ps| && ps[i].fields.category == filter ==> ps[i] in r
  {
    Filter(ps, (x: Record<Project>) => x.fields.category == filter)
  }

  /** The filter keeps the server's order: it distributes over any split of
      the list, and a newest-first listing stays newest first. */
  lemma FilterKeepsServerOrder(a: seq<Record<Project>>, b: seq<Record<Project>>, filter: string, s: ProjectStore)
    ensures FilteredProjects(a + b, filter) == FilteredProjects(a, filter) + FilteredProjects(b, filter)
    ensures IsListing(a, s) ==> SortedNewestFirst(FilteredProjects(a, filter))
  {
    var p := (x: Record<Project>) => x.fields.category == filter;
    FilterAppend(a, b, p);
    if IsListing(a, s) {
      FilterKeepsNewestFirst(a, p);
    }
  }

  /** A JSON value where a list is expected: an array, a string, or absent. */
  datatype JsonList = Array(items: seq<string>) | Text(text: string) | Absent

  /** Text tags: the text split on commas, each piece trimmed. */
  function TextTags(s: string): (r: seq<string>)
    ensures |r| == multiset(s)[','] + 1
    ensures forall i :: 0 <= i < |r| ==> r[i] == Trim(Split(s, ',')[i]) && ',' !in r[i]
    ensures forall i :: 0 <= i < |r| ==> IsTrimmed(r[i])
  {
    var pieces := Split(s, ',');
    assert forall i :: 0 <= i < |pieces| ==> ',' !in Trim(pieces[i]) by {
      forall i | 0 <= i < |pieces| ensures ',' !in Trim(pieces[i]) { TrimKeepsOut(pieces[i], ','); }
    }
    TrimAll(pieces)
  }

  /** The tags a card shows: an array as is, otherwise the text split on
      commas (absent counts as empty text), each tag trimmed. */
  function TechTags(t: JsonList): (r: seq<string>)
    ensures t.Array? ==> |r| == |t.items| && forall i :: 0 <= i < |r| ==> r[i] == Trim(t.items[i])
    ensures t.Text? ==> |r| == multiset(t.text)[','] + 1
    ensures t.Text? ==> forall i :: 0 <= i < |r| ==> r[i] == Trim(Split(t.text, ',')[i]) && ',' !in r[i]
    ensures t.Absent? ==> r == [""]
    ensures forall i :: 0 <= i < |r| ==> IsTrimmed(r[i])
  {
    match t
    case Array(xs) => TrimAll(xs)
    case Text(s) => TextTags(s)
    case Absent =>
      NoTags();
      TextTags("")
  }

  /** Empty text shows one empty tag. */
  lemma NoTags()
    ensures TextTags("") == [""]
  {
    var r := TextTags("");
    assert Split("", ',') == [""];
    assert |r[0]| <= |Split("", ',')[0]|;
  }

  /** Tags the server stored (trimmed, as its normalisation leaves them) are
      shown exactly as stored. */
  lemma StoredTagsShownAsIs(tech: seq<string>)
    requires forall i :: 0 <= i < |tech| ==> IsTrimmed(tech[i])
    ensures TechTags(Array(tech)) == tech
  {
    forall i | 0 <= i < |tech| ensures TechTags(Array(tech))[i] == tech[i] { TrimTrimmed(tech[i]); }
  }

  /** An achievement is listed when it is non-empty and not only whitespace. */
  predicate Visible(a: string) {
    a != "" && Trim(a) != ""
  }

  predicate Bulleted(a: string) {
    |a| > 0 && (a[0] == '•' || a[0] == '-')
  }

  /** `a.replace(/^[•-]\s*\/, '')`: one leading bullet and the whitespace after it go. */
  function StripBullet(a: string): (r: string)
    ensures !Bulleted(a) ==> r == a
    ensures Bulleted(a) ==>
              && |r| < |a|
              && r == a[|a| - |r|..]
              && AllWhitespace(a[1..|a| - |r|])
              && (r == "" || !IsWhitespace(r[0]))
  {
    if Bulleted(a) then
      var t := a[1..];
      var k := LeadingWhitespace(t);
      assert a[1..1 + k] == t[..k];
      t[k..]
    else a
  }

  function StripAll(xs: seq<string>): (r: seq<string>)
    ensures |r| == |xs| && forall i :: 0 <= i < |xs| ==> r[i] == StripBullet(xs[i])
  {
    if |xs| == 0 then [] else [StripBullet(xs[0])] + StripAll(xs[1..])
  }

  /** The achievements before filtering: an array as is, text split into lines. */
  function RawAchievements(a: JsonList): seq<string> {
    match a
    case Array(xs) => xs
    case Text(s) => Split(s, '\n')
    case Absent => []
  }

  /** `x` is the bullet-stripped form of a visible entry of `raw`. */
  predicate ComesFrom(raw: seq<string>, x: string) {
    exists j :: 0 <= j < |raw| && Visible(raw[j]) && x == StripBullet(raw[j])
  }

  /** Every listed line comes from a visible entry, and every visible entry is listed. */
  lemma ListedExactlyVisible(raw: seq<string>)
    ensures var r := StripAll(Filter(raw, Visible));
            && |r| <= |raw|
            && (forall i :: 0 <= i < |r| ==> ComesFrom(raw, r[i]))
            && (forall j :: 0 <= j < |raw| && Visible(raw[j]) ==> StripBullet(raw[j]) in r)
  {
    var shown := Filter(raw, Visible);
    var r := StripAll(shown);
    forall i | 0 <= i < |r| ensures ComesFrom(raw, r[i]) {
      var j :| 0 <= j < |raw| && raw[j] == shown[i];
    }
    forall j | 0 <= j < |raw| && Visible(raw[j]) ensures StripBullet(raw[j]) in r {
      var i :| 0 <= i < |shown| && shown[i] == raw[j];
      assert r[i] == StripBullet(raw[j]);
    }
  }

  /** The achievement list on a card, or `None` when the section is hidden
      (absent or empty text; an array, even an empty one, shows the section). */
  function DisplayedAchievements(a: JsonList): (r: Option<seq<string>>)
    ensures r.Some? <==> a.Array? || (a.Text? && a.text != "")
    ensures r.Some? ==> |r.value| <= |RawAchievements(a)|
    ensures r.Some? ==> forall i :: 0 <= i < |r.value| ==> ComesFrom(RawAchievements(a), r.value[i])
    ensures r.Some? ==> forall j :: 0 <= j < |RawAchievements(a)| && Visible(RawAchievements(a)[j]) ==>
                          StripBullet(RawAchievements(a)[j]) in r.value
    ensures r.Some? ==> r.value == StripAll(Filter(RawAchievements(a), Visible))
  {
    if a.Absent? || (a.Text? && a.text == "") then None
    else
      ListedExactlyVisible(RawAchievements(a));
      Some(StripAll(Filter(RawAchievements(a), Visible)))
  }

  lemma {:induction false} StripAllAppend(xs: seq<string>, ys: seq<string>)
    ensures StripAll(xs + ys) == StripAll(xs) + StripAll(ys)
  {
    if |xs| > 0 {
      var both := xs + ys;
      assert both[0] == xs[0] && both[1..] == xs[1..] + ys;
      StripAllAppend(xs[1..], ys);
      calc {
        StripAll(both);
        [StripBullet(xs[0])] + StripAll(xs[1..] + ys);
        [StripBullet(xs[0])] + (StripAll(xs[1..]) + StripAll(ys));
        ([StripBullet(xs[0])] + StripAll(xs[1..])) + StripAll(ys);
      }
    } else {
      assert xs + ys == ys;
    }
  }

  /** A single stored entry is listed, bullet stripped, exactly when visible. */
  lemma OneAchievementShown(x: string)
    ensures DisplayedAchievements(Array([x])) == Some(if Visible(x) then [StripBullet(x)] else [])
  {
    var shown := Filter([x], Visible);
    assert [x][1..] == [];
    assert shown == if Visible(x) then [x] else [];
    assert StripAll(shown) == if Visible(x) then [StripBullet(x)] else [];
  }

  /** The card keeps the stored order: the entries of a concatenation are
      those of the first part followed by those of the second, repetitions
      included. */
  lemma AchievementsShownInOrder(xs: seq<string>, ys: seq<string>)
    ensures DisplayedAchievements(Array(xs + ys)).value
            == DisplayedAchievements(Array(xs)).value + DisplayedAchievements(Array(ys)).value
  {
    FilterAppend(xs, ys, Visible);
    StripAllAppend(Filter(xs, Visible), Filter(ys, Visible));
  }

  /** Achievements the server stored (non-empty, trimmed) without a leading
      bullet are shown exactly as stored. */
  lemma StoredAchievementsShownAsIs(ach: seq<string>)
    requires forall i :: 0 <= i < |ach| ==> ach[i] != "" && IsTrimmed(ach[i]) && !Bulleted(ach[i])
    ensures DisplayedAchievements(Array(ach)) == Some(ach)
  {
    forall i | 0 <= i < |ach| ensures Visible(ach[i]) { TrimTrimmed(ach[i]); }
    FilterAll(ach, Visible);
    var r := DisplayedAchievements(Array(ach)).value;
    assert StripAll(ach) == ach;
  }

  /** Blank entries, such as the single empty entry an empty list turns into
      after an edit, are not listed. */
  lemma BlankEntriesHidden(ach: seq<string>)
    requires forall i :: 0 <= i < |ach| ==> AllWhitespace(ach[i])
    ensures DisplayedAchievements(Array(ach)) == Some([])
  {
    forall i | 0 <= i < |ach| ensures !Visible(ach[i]) { TrimBlank(ach[i]); }
  }
}

=== FILE: repository.dfy ===
/**
 * A document collection: records keyed by id, each stamped with a creation
 * time drawn from a strictly increasing clock. Listing returns every record,
 * most recently created first (a find sorted on `createdAt` descending).
 */
module Repository {
  import opened Seqs

  type Id = nat

  datatype Record<T> = Record(id: Id, createdAt: nat, fields: T)

  datatype Store<T> = Store(docs: map<Id, Record<T>>, clock: nat)

  /** Records sit under their own id; ids and creation times were issued by
      the clock, and no two records share a creation time. */
  predicate Valid<T>(s: Store<T>) {
    && (forall id :: id in s.docs ==>
          s.docs[id].id == id && id < s.clock && s.docs[id].createdAt < s.clock)
    && (forall a, b :: a in s.docs && b in s.docs && a != b ==>
          s.docs[a].createdAt != s.docs[b].createdAt)
  }

  function EmptyStore<T>(): (s: Store<T>)
    ensures Valid(s) && s.docs == map[]
  {
    Store(map[], 0)
  }

  /** Stores a new record under a fresh id; it is the newest record. */
  function Insert<T>(s: Store<T>, fields: T): (res: (Store<T>, Record<T>))
    requires Valid(s)
    ensures Valid(res.0)
    ensures res.1.id !in s.docs && res.1.fields == fields
    ensures res.0.docs == s.docs[res.1.id := res.1]
    ensures forall id :: id in s.docs ==> s.docs[id].createdAt < res.1.createdAt
  {
    var rec := Record(s.clock, s.clock, fields);
    (Store(s.docs[s.clock := rec], s.clock + 1), rec)
  }

  /** Removes the record with the given id; nothing else changes. */
  function Remove<T>(s: Store<T>, id: Id): (s': Store<T>)
    requires Valid(s) && id in s.docs
    ensures Valid(s')
    ensures s'.docs.Keys == s.docs.Keys - {id}
    ensures forall k :: k in s'.docs ==> s'.docs[k] == s.docs[k]
  {
    Store(s.docs - {id}, s.clock)
  }

  /** Replaces the fields of an existing record, keeping its id and creation time. */
  function Replace<T>(s: Store<T>, id: Id, fields: T): (s': Store<T>)
    requires Valid(s) && id in s.docs
    ensures Valid(s')
    ensures s'.docs.Keys == s.docs.Keys
    ensures s'.docs[id] == s.docs[id].(fields := fields)
    ensures forall k :: k in s.docs && k != id ==> s'.docs[k] == s.docs[k]
  {
    Store(s.docs[id := s.docs[id].(fields := fields)], s.clock)
  }

  /** Writing back the fields a record already has changes nothing. */
  lemma ReplaceUnchanged<T>(s: Store<T>, id: Id)
    requires Valid(s) && id in s.docs
    ensures Replace(s, id, s.docs[id].fields) == s
  {
    assert Replace(s, id, s.docs[id].fields).docs == s.docs;
  }

  predicate SortedNewestFirst<T>(r: seq<Record<T>>) {
    forall i, j :: 0 <= i < j < |r| ==> r[i].createdAt > r[j].createdAt
  }

  /** `r` is what listing `s` returns: each record of the store, newest first. */
  predicate IsListing<T(==)>(r: seq<Record<T>>, s: Store<T>) {
    && SortedNewestFirst(r)
    && (forall i :: 0 <= i < |r| ==> r[i].id in s.docs && s.docs[r[i].id] == r[i])
    && (forall id :: id in s.docs ==> s.docs[id] in r)
  }

  /** Putting in front a record newer than all others keeps the order. */
  lemma PrependNewest<T>(y: Record<T>, rest: seq<Record<T>>)
    requires SortedNewestFirst(rest)
    requires forall i :: 0 <= i < |rest| ==> rest[i].createdAt < y.createdAt
    ensures SortedNewestFirst([y] + rest)
  {
    var r := [y] + rest;
    forall i, j | 0 <= i < j < |r| ensures r[i].createdAt > r[j].createdAt {
      assert r[j] == rest[j - 1];
      if i > 0 { assert r[i] == rest[i - 1]; }
    }
  }

  /** Filtering a newest-first sequence keeps it newest first. */
  lemma {:induction false} FilterKeepsNewestFirst<T>(xs: seq<Record<T>>, p: Record<T> -> bool)
    requires SortedNewestFirst(xs)
    ensures SortedNewestFirst(Filter(xs, p))
  {
    if |xs| > 0 {
      var tail := xs[1..];
      FilterKeepsNewestFirst(tail, p);
      var rest := Filter(tail, p);
      if p(xs[0]) {
        forall j | 0 <= j < |rest| ensures rest[j].createdAt < xs[0].createdAt {
          var k :| 0 <= k < |tail| && tail[k] == rest[j];
          assert xs[k + 1] == rest[j];
        }
        PrependNewest(xs[0], rest);
        assert Filter(xs, p) == [xs[0]] + rest;
      } else {
        assert Filter(xs, p) == rest;
      }
    }
  }

  /** Records all older than `y`, with one more older record added, are
      still all older than `y`. */
  lemma OlderElements<T>(tail: seq<Record<T>>, x: Record<T>, rest: seq<Record<T>>, y: Record<T>)
    requires multiset(rest) == multiset(tail) + multiset{x}
    requires x.createdAt < y.createdAt
    requires forall i :: 0 <= i < |tail| ==> tail[i].createdAt < y.createdAt
    ensures forall i :: 0 <= i < |rest| ==> rest[i].createdAt < y.createdAt
  {
    forall i | 0 <= i < |rest| ensures rest[i].createdAt < y.createdAt {
      assert rest[i] in multiset(rest);
      if rest[i] != x {
        assert rest[i] in tail;
      }
    }
  }

  /** Places a record into a newest-first sequence by its creation time. */
  function InsertNewestFirst<T(==)>(r: seq<Record<T>>, x: Record<T>): (r': seq<Record<T>>)
    requires SortedNewestFirst(r)
    requires forall i :: 0 <= i < |r| ==> r[i].createdAt != x.createdAt
    ensures SortedNewestFirst(r')
    ensures multiset(r') == multiset(r) + multiset{x}
  {
    if |r| == 0 || x.createdAt > r[0].createdAt then
      PrependNewest(x, r);
      [x] + r
    else
      var tail := r[1..];
      var rest := InsertNewestFirst(tail, x);
      assert r == [r[0]] + tail;
      OlderElements(tail, x, rest, r[0]);
      PrependNewest(r[0], rest);
      [r[0]] + rest
  }

  /** Loop state of a listing: the records of the ids no longer pending,
      newest first. */
  predicate ListedSoFar<T(==)>(r: seq<Record<T>>, s: Store<T>, pending: set<Id>) {
    && pending <= s.docs.Keys
    && SortedNewestFirst(r)
    && (forall i :: 0 <= i < |r| ==> r[i].id in s.docs && s.docs[r[i].id] == r[i] && r[i].id !in pending)
    && (forall id :: id in s.docs && id !in pending ==> s.docs[id] in r)
    && |r| + |pending| == |s.docs|
  }

  /** A pending record was created at a time no listed record shares. */
  lemma PendingIsNew<T>(s: Store<T>, r: seq<Record<T>>, pending: set<Id>, id: Id)
    requires Valid(s) && ListedSoFar(r, s, pending) && id in pending
    ensures forall i :: 0 <= i < |r| ==> r[i].createdAt != s.docs[id].createdAt
  {
    forall i | 0 <= i < |r| ensures r[i].createdAt != s.docs[id].createdAt {
      assert r[i].id != id;
      assert r[i] == s.docs[r[i].id];
    }
  }

  /** After placing a pending record, the listed records are still records of
      the store whose ids are no longer pending. */
  lemma PlacedFromStore<T>(s: Store<T>, r: seq<Record<T>>, pending: set<Id>, id: Id, r': seq<Record<T>>)
    requires Valid(s) && ListedSoFar(r, s, pending) && id in pending
    requires multiset(r') == multiset(r) + multiset{s.docs[id]}
    ensures forall i :: 0 <= i < |r'| ==>
      r'[i].id in s.docs && s.docs[r'[i].id] == r'[i] && r'[i].id !in pending - {id}
  {
    forall i | 0 <= i < |r'| ensures r'[i].id in s.docs && s.docs[r'[i].id] == r'[i] && r'[i].id !in pending - {id} {
      assert r'[i] in multiset(r) + multiset{s.docs[id]};
      if r'[i] != s.docs[id] {
        assert r'[i] in multiset(r);
        var j :| 0 <= j < |r| && r[j] == r'[i];
      }
    }
  }

  /** After placing a pending record, every record no longer pending is listed. */
  lemma PlacedAll<T>(s: Store<T>, r: seq<Record<T>>, pending: set<Id>, id: Id, r': seq<Record<T>>)
    requires ListedSoFar(r, s, pending) && id in pending
    requires multiset(r') == multiset(r) + multiset{s.docs[id]}
    ensures forall k :: k in s.docs && k !in pending - {id} ==> s.docs[k] in r'
  {
    forall k | k in s.docs && k !in pending - {id} ensures s.docs[k] in r' {
      if k != id { assert s.docs[k] in multiset(r); }
      assert s.docs[k] in multiset(r');
    }
  }

  /** Placing one pending record keeps the loop state. */
  lemma ListStep<T>(s: Store<T>, r: seq<Record<T>>, pending: set<Id>, id: Id)
    requires Valid(s) && ListedSoFar(r, s, pending) && id in pending
    ensures forall i :: 0 <= i < |r| ==> r[i].createdAt != s.docs[id].createdAt
    ensures ListedSoFar(InsertNewestFirst(r, s.docs[id]), s, pending - {id})
  {
    PendingIsNew(s, r, pending, id);
    var r' := InsertNewestFirst(r, s.docs[id]);
    PlacedFromStore(s, r, pending, id, r');
    PlacedAll(s, r, pending, id, r');
    assert |r'| == |multiset(r')| == |r| + 1;
    assert |pending - {id}| == |pending| - 1;
  }

  /** Lists the whole collection, most recently created first. */
  method List<T(==)>(s: Store<T>) returns (r: seq<Record<T>>)
    requires Valid(s)
    ensures IsListing(r, s)
    ensures |r| == |s.docs|
  {
    r := [];
    var pending := s.docs.Keys;
    while pending != {}
      invariant ListedSoFar(r, s, pending)
      decreases |pending|
    {
      var id :| id in pending;
      ListStep(s, r, pending, id);
      r := InsertNewestFirst(r, s.docs[id]);
      pending := pending - {id};
    }
  }

  lemma SameElementsBothEmpty<T>(a: seq<T>, b: seq<T>)
    requires forall x :: x in a <==> x in b
    ensures |a| == 0 <==> |b| == 0
  {
    if |a| > 0 { assert a[0] in a; }
    if |b| > 0 { assert b[0] in b; }
  }

  /** The head of a newest-first sequence does not recur in its tail. */
  lemma InTail<T>(a: seq<Record<T>>, x: Record<T>)
    requires SortedNewestFirst(a) && |a| > 0
    ensures x in a[1..] <==> x in a && x != a[0]
  {
    forall i | 0 <= i < |a| - 1 ensures a[1..][i] != a[0] {
      assert a[1..][i] == a[i + 1];
    }
    assert a == [a[0]] + a[1..];
  }

  /** Two newest-first sequences of the same records start with the same one. */
  lemma HeadsAgree<T>(a: seq<Record<T>>, b: seq<Record<T>>)
    requires SortedNewestFirst(a) && SortedNewestFirst(b)
    requires forall x :: x in a <==> x in b
    requires |a| > 0 && |b| > 0
    ensures a[0] == b[0]
  {
    assert a[0] in a && b[0] in b;
    var k :| 0 <= k < |b| && b[k] == a[0];
    var m :| 0 <= m < |a| && a[m] == b[0];
    assert a[0].createdAt >= b[0].createdAt by {
      if m > 0 { assert a[0].createdAt > a[m].createdAt; }
    }
    assert k == 0;
  }

  /** Two newest-first sequences of the same records are identical, so a
      listing is determined by the store. */
  lemma {:induction false} NewestFirstUnique<T>(a: seq<Record<T>>, b: seq<Record<T>>)
    requires SortedNewestFirst(a) && SortedNewestFirst(b)
    requires forall x :: x in a <==> x in b
    ensures a == b
  {
    SameElementsBothEmpty(a, b);
    if |a| > 0 {
      HeadsAgree(a, b);
      forall x ensures x in a[1..] <==> x in b[1..] {
        InTail(a, x);
        InTail(b, x);
      }
      NewestFirstUnique(a[1..], b[1..]);
      assert a == [a[0]] + a[1..] && b == [b[0]] + b[1..];
    }
  }

  /** A store has exactly one listing. */
  lemma ListingUnique<T>(r1: seq<Record<T>>, r2: seq<Record<T>>, s: Store<T>)
    requires IsListing(r1, s) && IsListing(r2, s)
    ensures r1 == r2
  {
    forall x ensures x in r1 <==> x in r2 {
      if x in r1 { var i :| 0 <= i < |r1| && r1[i] == x; assert x == s.docs[x.id]; }
      if x in r2 { var i :| 0 <= i < |r2| && r2[i] == x; assert x == s.docs[x.id]; }
    }
    NewestFirstUnique(r1, r2);
  }
}

=== FILE: routes.dfy ===
/**
 * The route tables and the middleware chain in front of the controllers
 * (server/routes/projectRoutes.js, server/routes/certificateRoutes.js,
 * server/routes/resumeRoutes.js). Each write route runs the `protect`
 * guard first; an upload route then runs its file filter, whose rejection
 * reaches Express's default error handler as a 500; only then does the
 * controller run.
 */
module Routes {
  import opened Wrappers
  import opened Http
  import opened Repository
  import opened Upload
  import opened ProjectModel
  import opened ProjectController
  import opened CertificateModel
  import opened CertificateController

  datatype Verb = GET | POST | PUT | DELETE

  /** A route: its verb and path, whether `protect` guards it, and the
      multipart field a single file is read from. */
  datatype Route = Route(verb: Verb, path: string, guarded: bool, fileField: Option<string>)

  const PROJECT_ROUTES := [
    Route(GET, "/", false, None),
    Route(POST, "/", true, Some("image")),
    Route(PUT, "/:id", true, Some("image")),
    Route(DELETE, "/:id", true, None)]

  const CERTIFICATE_ROUTES := [
    Route(GET, "/", false, None),
    Route(POST, "/", true, None),
    Route(PUT, "/:id", true, None),
    Route(DELETE, "/:id", true, None)]

  const RESUME_ROUTES := [
    Route(POST, "/upload", true, Some("resume")),
    Route(GET, "/", false, None)]

  /** Reads are public and every write is guarded. */
  predicate WritesGuarded(routes: seq<Route>) {
    forall i :: 0 <= i < |routes| ==> (routes[i].guarded <==> routes[i].verb != GET)
  }

  lemma AllWritesGuarded()
    ensures WritesGuarded(PROJECT_ROUTES)
    ensures WritesGuarded(CERTIFICATE_ROUTES)
    ensures WritesGuarded(RESUME_ROUTES)
  {
  }

  /** The first route with the given verb and path. */
  function Lookup(routes: seq<Route>, verb: Verb, path: string): (r: Option<Route>)
    ensures r.Some? ==> r.value in routes && r.value.verb == verb && r.value.path == path
    ensures r.None? ==> forall i :: 0 <= i < |routes| ==> routes[i].verb != verb || routes[i].path != path
  {
    if |routes| == 0 then None
    else if routes[0].verb == verb && routes[0].path == path then Some(routes[0])
    else Lookup(routes[1..], verb, path)
  }

  /** How a request ends: stopped by the guard (401), stopped by the file
      filter (500 with the filter's message), or answered by the controller. */
  datatype Outcome<R> = Unauthenticated | UploadRejected(error: string) | Handled(reply: R)

  function Status<T>(o: Outcome<Reply<T>>): (code: int)
    ensures o.Unauthenticated? ==> code == UNAUTHORIZED
    ensures o.UploadRejected? ==> code == SERVER_ERROR
    ensures o.Handled? ==> code == o.reply.code
  {
    match o
    case Unauthenticated => UNAUTHORIZED
    case UploadRejected(_) => SERVER_ERROR
    case Handled(r) => r.code
  }

  /** The middleware verdict: `None` lets the request through to the controller. */
  function Admit<R>(route: Route, authenticated: bool, file: Option<UploadedFile>,
                    accept: UploadedFile -> bool, rejection: string): (g: Option<Outcome<R>>)
    ensures route.guarded && !authenticated ==> g == Some(Unauthenticated)
    ensures g.None? <==>
              && (!route.guarded || authenticated)
              && (route.fileField.None? || file.None? || accept(file.value))
    ensures g.Some? && (!route.guarded || authenticated) ==> g == Some(UploadRejected(rejection))
  {
    if route.guarded && !authenticated then Some(Unauthenticated)
    else if route.fileField.Some? && file.Some? && !accept(file.value) then Some(UploadRejected(rejection))
    else None
  }

  /** The verdict for a request without an upload: only the guard applies. */
  function Guard<R>(route: Route, authenticated: bool): (g: Option<Outcome<R>>)
    ensures g.None? <==> !route.guarded || authenticated
    ensures g.Some? ==> g == Some(Unauthenticated)
  {
    Admit(route, authenticated, None, (f: UploadedFile) => true, "")
  }

  /** `req.file.path` of an image stored at time `now`. */
  function ImagePath(file: Option<UploadedFile>, now: nat): Option<string> {
    if file.Some? then Some(PROJECT_IMAGE_DIR + ProjectFileName(now, file.value.originalName)) else None
  }

  /** POST /api/projects with an optional image uploaded at time `now`. */
  function PostProject(s: ProjectStore, body: ProjectPayload, file: Option<UploadedFile>,
                       authenticated: bool, now: nat)
    : (res: (Outcome<Reply<Record<Project>>>, ProjectStore))
    requires ProjectController.Consistent(s)
    ensures ProjectController.Consistent(res.1)
    ensures !authenticated ==> res == (Unauthenticated, s)
    ensures authenticated && file.Some? && !ImageAccepted(file.value) ==> res == (UploadRejected(IMAGE_ERROR), s)
    ensures !res.0.Handled? ==> res.1 == s
    ensures res.0.Handled? ==> res == (Handled(CreateProject(s, body, ImagePath(file, now)).0),
                                       CreateProject(s, body, ImagePath(file, now)).1)
    ensures res.0.Handled? && res.0.reply.Success? && file.Some? ==>
              && res.0.reply.data.fields.image == PROJECT_IMAGE_DIR + ProjectFileName(now, file.value.originalName)
              && ImageAccepted(file.value)
  {
    var route := PROJECT_ROUTES[1];
    match Admit(route, authenticated, file, ImageAccepted, IMAGE_ERROR)
    case Some(stop) => (stop, s)
    case None =>
      var (reply, s') := CreateProject(s, body, ImagePath(file, now));
      (Handled(reply), s')
  }

  /** PUT /api/projects/:id with an optional replacement image. */
  function PutProject(s: ProjectStore, id: Id, body: ProjectPayload, file: Option<UploadedFile>,
                      authenticated: bool, now: nat)
    : (res: (Outcome<Reply<Record<Project>>>, ProjectStore))
    requires ProjectController.Consistent(s)
    ensures ProjectController.Consistent(res.1)
    ensures !authenticated ==> res == (Unauthenticated, s)
    ensures authenticated && file.Some? && !ImageAccepted(file.value) ==> res == (UploadRejected(IMAGE_ERROR), s)
    ensures !res.0.Handled? ==> res.1 == s
    ensures res.0.Handled? ==> res == (Handled(UpdateProject(s, id, body, ImagePath(file, now)).0),
                                       UpdateProject(s, id, body, ImagePath(file, now)).1)
    ensures res.0.Handled? && res.0.reply.Success? && file.None? && body.image.Missing? ==>
              res.0.reply.data.fields.image == s.docs[id].fields.image
  {
    var route := PROJECT_ROUTES[2];
    match Admit(route, authenticated, file, ImageAccepted, IMAGE_ERROR)
    case Some(stop) => (stop, s)
    case None =>
      var (reply, s') := UpdateProject(s, id, body, ImagePath(file, now));
      (Handled(reply), s')
  }

  /** DELETE /api/projects/:id. */
  function DeleteProjectRoute(s: ProjectStore, id: Id, authenticated: bool)
    : (res: (Outcome<Reply<Empty>>, ProjectStore))
    requires ProjectController.Consistent(s)
    ensures ProjectController.Consistent(res.1)
    ensures !authenticated ==> res == (Unauthenticated, s)
    ensures authenticated ==> res == (Handled(DeleteProject(s, id).0), DeleteProject(s, id).1)
  {
    match Guard(PROJECT_ROUTES[3], authenticated)
    case Some(stop) => (stop, s)
    case None =>
      var (reply, s') := DeleteProject(s, id);
      (Handled(reply), s')
  }

  /** POST /api/certificates. */
  function PostCertificate(s: CertificateStore, body: CertificatePayload, authenticated: bool)
    : (res: (Outcome<Reply<Record<Certificate>>>, CertificateStore))
    requires CertificateController.Consistent(s)
    ensures CertificateController.Consistent(res.1)
    ensures !authenticated ==> res == (Unauthenticated, s)
    ensures authenticated ==> res == (Handled(CreateCertificate(s, body).0), CreateCertificate(s, body).1)
  {
    match Guard(CERTIFICATE_ROUTES[1], authenticated)
    case Some(stop) => (stop, s)
    case None =>
      var (reply, s') := CreateCertificate(s, body);
      (Handled(reply), s')
  }

  /** PUT /api/certificates/:id. */
  function PutCertificate(s: CertificateStore, id: Id, body: CertificatePayload, authenticated: bool)
    : (res: (Outcome<Reply<Record<Certificate>>>, CertificateStore))
    requires CertificateController.Consistent(s)
    ensures CertificateController.Consistent(res.1)
    ensures !authenticated ==> res == (Unauthenticated, s)
    ensures authenticated ==> res == (Handled(UpdateCertificate(s, id, body).0), UpdateCertificate(s, id, body).1)
  {
    match Guard(CERTIFICATE_ROUTES[2], authenticated)
    case Some(stop) => (stop, s)
    case None =>
      var (reply, s') := UpdateCertificate(s, id, body);
      (Handled(reply), s')
  }

  /** DELETE /api/certificates/:id. */
  function DeleteCertificateRoute(s: CertificateStore, id: Id, authenticated: bool)
    : (res: (Outcome<Reply<Empty>>, CertificateStore))
    requires CertificateController.Consistent(s)
    ensures CertificateController.Consistent(res.1)
    ensures !authenticated ==> res == (Unauthenticated, s)
    ensures authenticated ==> res == (Handled(DeleteCertificate(s, id).0), DeleteCertificate(s, id).1)
  {
    match Guard(CERTIFICATE_ROUTES[3], authenticated)
    case Some(stop) => (stop, s)
    case None =>
      var (reply, s') := DeleteCertificate(s, id);
      (Handled(reply), s')
  }

  /** The public path of the stored resume. */
  const RESUME_PATH := "/uploads/" + RESUME_FILENAME

  /** The resume file on disk: the content of `uploads/resume.pdf`, if any. */
  datatype ResumeDisk = ResumeDisk(resume: Option<seq<bv8>>)

  /** POST /api/resume/upload: a guarded PDF upload that always overwrites
      the single stored resume. A request without a file is a 400. */
  function UploadResume(disk: ResumeDisk, file: Option<UploadedFile>, authenticated: bool)
    : (res: (Outcome<Reply<string>>, ResumeDisk))
    ensures !authenticated ==> res == (Unauthenticated, disk)
    ensures authenticated && file.None? ==> res == (Handled(Failure(BAD_REQUEST, "Please upload a file")), disk)
    ensures authenticated && file.Some? && !PdfAccepted(file.value) ==> res == (UploadRejected(PDF_ERROR), disk)
    ensures res.1 != disk ==> res.0 == Handled(Success(OK, RESUME_PATH))
    ensures res.0 == Handled(Success(OK, RESUME_PATH)) <==>
              authenticated && file.Some? && PdfAccepted(file.value)
    ensures res.0.Handled? && res.0.reply.Success? ==> res.1 == ResumeDisk(Some(file.value.content))
  {
    match Admit(RESUME_ROUTES[0], authenticated, file, PdfAccepted, PDF_ERROR)
    case Some(stop) => (stop, disk)
    case None =>
      if file.None? then (Handled(Failure(BAD_REQUEST, "Please upload a file")), disk)
      else (Handled(Success(OK, "/uploads/" + RESUME_FILENAME)), ResumeDisk(Some(file.value.content)))
  }

  /** GET /api/resume: the public path when a resume is stored, else a 404. */
  function GetResume(disk: ResumeDisk): (r: Reply<string>)
    ensures r.Success? <==> disk.resume.Some?
    ensures r.Success? ==> r == Success(OK, RESUME_PATH)
    ensures r.Failure? ==> r == Failure(NOT_FOUND, "Resume not found")
  {
    if disk.resume.Some? then Success(OK, RESUME_PATH) else Failure(NOT_FOUND, "Resume not found")
  }

  /** After an accepted upload, the public read points at the path the upload
      reported, and the file there is the one just uploaded. */
  lemma UploadThenGet(disk: ResumeDisk, file: UploadedFile)
    requires PdfAccepted(file)
    ensures var (o, d) := UploadResume(disk, Some(file), true);
            && o == Handled(GetResume(d))
            && d.resume == Some(file.content)
  {
  }

  /** Only the latest accepted upload is kept. */
  lemma SecondUploadWins(disk: ResumeDisk, first: UploadedFile, second: UploadedFile)
    requires PdfAccepted(second)
    ensures UploadResume(UploadResume(disk, Some(first), true).1, Some(second), true).1
         == ResumeDisk(Some(second.content))
  {
  }
}

=== FILE: seqs.dfy ===
/** Order-preserving `Array.prototype.filter` and `reverse` on sequences. */
module Seqs {

  /** `xs.filter(p)`. */
  function Filter<T(==)>(xs: seq<T>, p: T -> bool): (r: seq<T>)
    ensures |r| <= |xs|
    ensures forall i :: 0 <= i < |r| ==> r[i] in xs && p(r[i])
    ensures forall i :: 0 <= i < |xs| && p(xs[i]) ==> xs[i] in r
  {
    if |xs| == 0 then []
    else (if p(xs[0]) then [xs[0]] else []) + Filter(xs[1..], p)
  }

  /** Filtering keeps relative order: it distributes over concatenation. */
  lemma {:induction false} FilterAppend<T>(a: seq<T>, b: seq<T>, p: T -> bool)
    ensures Filter(a + b, p) == Filter(a, p) + Filter(b, p)
  {
    if |a| > 0 {
      assert (a + b)[1..] == a[1..] + b;
      FilterAppend(a[1..], b, p);
    } else {
      assert a + b == b;
    }
  }

  /** A filter every element passes keeps the whole sequence. */
  lemma {:induction false} FilterAll<T>(xs: seq<T>, p: T -> bool)
    requires forall i :: 0 <= i < |xs| ==> p(xs[i])
    ensures Filter(xs, p) == xs
  {
    if |xs| > 0 {
      FilterAll(xs[1..], p);
      assert [xs[0]] + xs[1..] == xs;
    }
  }

  /** Filters by predicates that agree on every element give the same result. */
  lemma {:induction false} FilterSame<T>(xs: seq<T>, p: T -> bool, q: T -> bool)
    requires forall i :: 0 <= i < |xs| ==> p(xs[i]) == q(xs[i])
    ensures Filter(xs, p) == Filter(xs, q)
  {
    if |xs| > 0 {
      FilterSame(xs[1..], p, q);
    }
  }

  /** `xs.slice().reverse()`. */
  function Reverse<T>(xs: seq<T>): (r: seq<T>)
    ensures |r| == |xs|
    ensures forall i :: 0 <= i < |xs| ==> r[i] == xs[|xs| - 1 - i]
  {
    if |xs| == 0 then [] else Reverse(xs[1..]) + [xs[0]]
  }

  lemma ReverseReverse<T>(xs: seq<T>)
    ensures Reverse(Reverse(xs)) == xs
  {
  }

  /** Filtering a reversed sequence reverses the filtered one. */
  lemma {:induction false} FilterReverse<T>(xs: seq<T>, p: T -> bool)
    ensures Filter(Reverse(xs), p) == Reverse(Filter(xs, p))
  {
    if |xs| > 0 {
      FilterReverse(xs[1..], p);
      FilterAppend(Reverse(xs[1..]), [xs[0]], p);
      assert Filter([xs[0]], p) == if p(xs[0]) then [xs[0]] else [];
      ReverseAppend(if p(xs[0]) then [xs[0]] else [], Filter(xs[1..], p));
    }
  }

  /** Reversal turns a concatenation around. */
  lemma {:induction false} ReverseAppend<T>(a: seq<T>, b: seq<T>)
    ensures Reverse(a + b) == Reverse(b) + Reverse(a)
  {
    if |a| > 0 {
      assert (a + b)[1..] == a[1..] + b;
      ReverseAppend(a[1..], b);
    } else {
      assert a + b == b;
    }
  }
}

=== FILE: upload.dfy ===
/**
 * The upload file filters and stored file names of the project-image route
 * (server/routes/projectRoutes.js) and the resume route
 * (server/routes/resumeRoutes.js). A file is judged by the extension of its
 * client-side name, lower-cased, and by its declared MIME type as sent; both
 * tests are unanchored regular-expression searches.
 */
module Upload {
  import opened JsStrings

  /** What the upload layer knows about a received file. */
  datatype UploadedFile = UploadedFile(originalName: string, mimetype: string, content: seq<bv8>)

  const IMAGE_TYPES := ["jpeg", "jpg", "png", "webp"]
  const PDF_TYPES := ["pdf"]
  const IMAGE_ERROR := "Error: Only images (jpeg, jpg, png, webp) are allowed!"
  const PDF_ERROR := "Error: PDFs Only!"
  const PROJECT_IMAGE_DIR := "uploads/projects/"
  const PROJECT_IMAGE_PREFIX := "project-"
  const RESUME_FILENAME := "resume.pdf"

  /** Position of the last `c` in `s`, or -1. */
  function LastIndex(s: string, c: char): (k: int)
    ensures -1 <= k < |s|
    ensures k == -1 <==> c !in s
    ensures k >= 0 ==> s[k] == c && c !in s[k + 1..]
  {
    if |s| == 0 then -1
    else if s[|s| - 1] == c then |s| - 1
    else
      var k := LastIndex(s[..|s| - 1], c);
      assert s == s[..|s| - 1] + [s[|s| - 1]];
      k
  }

  function StripTrailingSlashes(p: string): (r: string)
    ensures |r| <= |p| && r == p[..|r|]
    ensures r == "" || r[|r| - 1] != '/'
    ensures forall i :: |r| <= i < |p| ==> p[i] == '/'
  {
    if |p| > 0 && p[|p| - 1] == '/' then StripTrailingSlashes(p[..|p| - 1]) else p
  }

  /** The last path component, trailing slashes ignored. */
  function Basename(p: string): (b: string)
    ensures '/' !in b
  {
    var q := StripTrailingSlashes(p);
    q[LastIndex(q, '/') + 1..]
  }

  /** Node's `path.extname` (POSIX): from the last dot of the last component
      to its end, except when that dot opens the component or the component
      is `..`. */
  function Extname(p: string): (r: string)
    ensures r == "" || (r[0] == '.' && '.' !in r[1..] && '/' !in r)
    ensures r != "" ==> '.' in Basename(p) && Basename(p) != ".."
  {
    var b := Basename(p);
    var k := LastIndex(b, '.');
    if k <= 0 || b == ".." then "" else b[k..]
  }

  /** The text after a last dot that is not the first character is the extension. */
  lemma ExtnameOfSuffix(stem: string, ext: string)
    requires stem != "" && '/' !in stem && stem + ext != ".."
    requires |ext| > 0 && ext[0] == '.' && '.' !in ext[1..] && '/' !in ext[1..]
    ensures Extname(stem + ext) == ext
  {
    var q := stem + ext;
    assert q[|q| - 1] == ext[|ext| - 1];
    assert StripTrailingSlashes(q) == q;
    assert '/' !in q by {
      forall i | 0 <= i < |q| ensures q[i] != '/' {
        if i >= |stem| { assert q[i] == ext[i - |stem|]; if i > |stem| { assert ext[1..][i - |stem| - 1] == q[i]; } }
      }
    }
    assert Basename(q) == q;
    var k := LastIndex(q, '.');
    assert q[|stem|] == '.';
    assert k == |stem|;
    assert q[k..] == ext;
  }

  /** A name with no dot and no slash has no extension. */
  lemma ExtnameWithoutDot(s: string)
    requires '.' !in s && '/' !in s
    ensures Extname(s) == ""
  {
    if s != "" {
      assert s[|s| - 1] in s;
    }
    assert StripTrailingSlashes(s) == s;
  }

  /** Appending any extension to a plain stem gives a name with exactly that extension. */
  lemma ExtnameAfterPlainStem(stem: string, ext: string)
    requires stem != "" && '.' !in stem && '/' !in stem
    requires ext == "" || (ext[0] == '.' && '.' !in ext[1..] && '/' !in ext)
    ensures Extname(stem + ext) == ext
    ensures '/' !in stem + ext
  {
    if ext == "" {
      ExtnameWithoutDot(stem);
      assert stem + ext == stem;
    } else {
      assert '/' !in ext[1..] by {
        forall i | 0 <= i < |ext| - 1 ensures ext[1..][i] != '/' { assert ext[1..][i] == ext[i + 1]; }
      }
      assert (stem + ext)[0] != '.';
      ExtnameOfSuffix(stem, ext);
    }
    assert '/' !in stem + ext by {
      forall i | 0 <= i < |stem + ext| ensures (stem + ext)[i] != '/' {
        if i >= |stem| { assert (stem + ext)[i] == ext[i - |stem|]; }
      }
    }
  }

  /** `new RegExp(alts.join('|')).test(s)`. */
  predicate MatchesAny(s: string, alts: seq<string>) {
    exists i :: 0 <= i < |alts| && Contains(s, alts[i])
  }

  /** The test shared by both filters. */
  predicate Accepts(f: UploadedFile, types: seq<string>) {
    MatchesAny(ToLower(Extname(f.originalName)), types) && MatchesAny(f.mimetype, types)
  }

  predicate ImageAccepted(f: UploadedFile) {
    Accepts(f, IMAGE_TYPES)
  }

  predicate PdfAccepted(f: UploadedFile) {
    Accepts(f, PDF_TYPES)
  }

  /** The stored name of a project image: the upload time, then the
      original extension with its case kept. */
  function ProjectFileName(now: nat, originalName: string): string {
    PROJECT_IMAGE_PREFIX + Decimal(now) + Extname(originalName)
  }

  /** The part of a stored name before its extension holds no dot or slash. */
  lemma PlainStem(now: nat)
    ensures var stem := PROJECT_IMAGE_PREFIX + Decimal(now);
            stem != "" && '.' !in stem && '/' !in stem
  {
    var stem := PROJECT_IMAGE_PREFIX + Decimal(now);
    forall i | 0 <= i < |stem| ensures stem[i] != '.' && stem[i] != '/' {
      if i >= |PROJECT_IMAGE_PREFIX| { assert stem[i] == Decimal(now)[i - |PROJECT_IMAGE_PREFIX|]; }
    }
  }

  /** A stored project image has the extension of the file it came from. */
  lemma ProjectFileNameKeepsExtension(now: nat, originalName: string)
    ensures Extname(ProjectFileName(now, originalName)) == Extname(originalName)
    ensures '/' !in ProjectFileName(now, originalName)
  {
    var d, ext := Decimal(now), Extname(originalName);
    var stem := PROJECT_IMAGE_PREFIX + d;
    PlainStem(now);
    ExtnameAfterPlainStem(stem, ext);
  }

  lemma PrefixCancel(p: string, x1: string, y1: string, x2: string, y2: string)
    requires p + x1 + y1 == p + x2 + y2
    ensures x1 + y1 == x2 + y2
  {
    assert x1 + y1 == (p + x1 + y1)[|p|..];
    assert x2 + y2 == (p + x2 + y2)[|p|..];
  }

  /** A digit run followed by nothing or by a dot is determined by the whole text. */
  lemma DigitRunUnique(d1: string, e1: string, d2: string, e2: string)
    requires IsDigits(d1) && IsDigits(d2)
    requires e1 == "" || e1[0] == '.'
    requires e2 == "" || e2[0] == '.'
    requires d1 + e1 == d2 + e2
    ensures d1 == d2
  {
    assert d1 == (d1 + e1)[..|d1|];
    assert d2 == (d2 + e2)[..|d2|];
  }

  /** Two uploads at different times never share a stored name. */
  lemma ProjectFileNamesDistinct(t1: nat, n1: string, t2: nat, n2: string)
    requires t1 != t2
    ensures ProjectFileName(t1, n1) != ProjectFileName(t2, n2)
  {
    var d1, d2 := Decimal(t1), Decimal(t2);
    var e1, e2 := Extname(n1), Extname(n2);
    if ProjectFileName(t1, n1) == ProjectFileName(t2, n2) {
      PrefixCancel(PROJECT_IMAGE_PREFIX, d1, e1, d2, e2);
      DigitRunUnique(d1, e1, d2, e2);
      DecimalInjective(t1, t2);
    }
  }

  /** A stored project image passes the filter it was accepted by. */
  lemma StoredImageStillAccepted(now: nat, f: UploadedFile)
    requires ImageAccepted(f)
    ensures ImageAccepted(f.(originalName := ProjectFileName(now, f.originalName)))
  {
    ProjectFileNameKeepsExtension(now, f.originalName);
  }
}

=== FILE: values.dfy ===
/**
 * Fields of a parsed request body and the way the document schema casts
 * them into stored values (string, string array and boolean paths).
 */
module Values {
  import opened Wrappers
  import opened JsStrings

  /** One field of a request body. Multipart form fields are always text; a
      JSON body may also carry booleans and arrays of strings. */
  datatype Value = Missing | Str(text: string) | Bool(flag: bool) | Strs(items: seq<string>)

  /** JavaScript truthiness of the field: `undefined`, `""` and `false` are falsy. */
  predicate Truthy(v: Value) {
    match v
    case Missing => false
    case Str(s) => s != ""
    case Bool(b) => b
    case Strs(_) => true
  }

  function BoolText(b: bool): string {
    if b then "true" else "false"
  }

  /** Cast to a `String` path: text is kept (trimmed when the path says
      `trim`), a boolean becomes its name, an array cannot be cast, and a
      missing field leaves the path unset. */
  function CastString(v: Value, trim: bool): (r: Result<Option<string>>)
    ensures r == Ok(None) <==> v.Missing?
    ensures r.Err? <==> v.Strs?
    ensures r.Ok? && r.value.Some? && trim ==> IsTrimmed(r.value.value)
    ensures v.Str? ==> r == Ok(Some(if trim then Trim(v.text) else v.text))
    ensures v.Bool? ==> r == Ok(Some(if v.flag then "true" else "false"))
  {
    match v
    case Missing => Ok(None)
    case Str(s) => Ok(Some(if trim then Trim(s) else s))
    case Bool(b) => Ok(Some(BoolText(b)))
    case Strs(_) => Err("Cast to string failed")
  }

  /** Cast to a `[String]` path: an array is kept, a single value is wrapped
      into a one-element array, a missing field leaves the path unset. */
  function CastStringArray(v: Value): (r: Option<seq<string>>)
    ensures r.None? <==> v.Missing?
    ensures v.Strs? ==> r == Some(v.items)
    ensures v.Str? ==> r == Some([v.text])
  {
    match v
    case Missing => None
    case Str(s) => Some([s])
    case Bool(b) => Some([BoolText(b)])
    case Strs(xs) => Some(xs)
  }

  /** Cast to a `Boolean` path, accepting the spellings the schema layer
      recognises for true and false. */
  function CastBoolean(v: Value): (r: Result<Option<bool>>)
    ensures r == Ok(None) <==> v.Missing?
    ensures v.Bool? ==> r == Ok(Some(v.flag))
    ensures v.Strs? ==> r.Err?
  {
    match v
    case Missing => Ok(None)
    case Bool(b) => Ok(Some(b))
    case Str(s) =>
      if s == "true" || s == "1" || s == "yes" then Ok(Some(true))
      else if s == "false" || s == "0" || s == "no" then Ok(Some(false))
      else Err("Cast to Boolean failed")
    case Strs(_) => Err("Cast to Boolean failed")
  }

  /** The cast value of a supplied text field, or `prior` when the field is
      missing or cannot be cast. */
  function TextOr(prior: string, v: Value, trim: bool): string {
    match CastString(v, trim)
    case Ok(Some(s)) => s
    case _ => prior
  }

  function OptTextOr(prior: Option<string>, v: Value, trim: bool): Option<string> {
    match CastString(v, trim)
    case Ok(Some(s)) => Some(s)
    case _ => prior
  }

  /** Supplied text that casts to the empty string: all whitespace on a
      `trim` path, the empty string on any other. */
  predicate BlankText(v: Value, trim: bool) {
    v.Str? && (if trim then AllWhitespace(v.text) else v.text == "")
  }

  /** A field that passes a required `String` validator: present, castable
      and not blank. A boolean passes, as its name is non-empty text. */
  predicate FillsRequired(v: Value, trim: bool) {
    !v.Missing? && !v.Strs? && !BlankText(v, trim)
  }

  /** A required path is satisfied exactly when the cast yields non-empty text. */
  lemma RequiredTextCast(v: Value, trim: bool)
    ensures FillsRequired(v, trim) <==>
              CastString(v, trim).Ok? && CastString(v, trim).value.Some?
              && CastString(v, trim).value.value != ""
  {
    if v.Str? && trim { TrimBlank(v.text); }
  }

  /** Casting a castable field onto a path leaves it non-empty exactly when
      the field is missing and the prior value is non-empty, or the field is
      supplied and not blank. */
  lemma TextOrNonEmpty(prior: string, v: Value, trim: bool)
    requires !v.Strs?
    ensures TextOr(prior, v, trim) != "" <==> if v.Missing? then prior != "" else !BlankText(v, trim)
  {
    if v.Str? && trim { TrimBlank(v.text); }
  }
}

=== FILE: wrappers.dfy ===
/** Optional values and results carrying an error text, used throughout the model. */
module Wrappers {

  /** A value that may be absent (a JavaScript `undefined`). */
  datatype Option<+T> = None | Some(value: T)

  /** The outcome of a validation or cast: a value, or the text of the error raised. */
  datatype Result<+T> = Ok(value: T) | Err(message: string) {

    predicate IsFailure() {
      Err?
    }

    function PropagateFailure<U>(): Result<U>
      requires Err?
    {
      Err(message)
    }

    function Extract(): T
      requires Ok?
    {
      value
    }
  }
}
